=== FILE: README.md ===
# MeMS free list in Dafny

This project models the engine of MeMS, a small user-space memory
allocator. MeMS hands out its own virtual addresses and backs them with
page-sized host mappings. It keeps all of its state in a two-level free list:

- The **main chain** is a list of pages (`Node`), in ascending address order.
  Each page is one `PAGE_SIZE` (4096-byte) mapping with a physical base.
- Each page has a **sub-chain** of segments. A segment is `PROCESS`
  (allocated) or `HOLE` (free), and has a size and a MeMS virtual offset.
  The segments of a page are expected to tile its virtual range exactly.
- A **counter**, `next_virtual_address`, starts at 1000. It moves on by one
  page each time a new page is requested.

The model is functional. A `FreeList` holds a `seq<Node>` and the counter.
Each `Node` holds a physical base and a `seq<Segment>`. Pointer surgery on
the doubly linked lists becomes sequence splicing (`Segments.Splice`).

The modules follow the structure of the C file:

- `Segments` holds segment types, chain predicates (`Contiguous`, `Tiles`, `NoAdjacentHoles`, `PageChain`) and byte counts.
- `Pages` holds the state, `mems_init`, the one scan every operation uses (`Find`, first match in page order then chain order), and the sorted page insertion.
- `Alloc` holds `mems_malloc`: first fit, split, new page, sorted insert.
- `Dealloc` holds `mems_free`: retag, then merge with a free predecessor and a free successor.
- `Translate` holds `mems_get`, as written and corrected (see Findings), and how malloc and free change translations.
- `Stats` holds the counting pass of `mems_print_stats`.
- `Session` runs a sequence of calls and keeps the invariant. It also tracks which blocks are live: the allocated segments are exactly the blocks malloc returned that no later free gave back.
- `Scenarios` holds concrete runs.

The invariant of a reachable state is `Pages.Valid`. It requires the following:

- every page is tiled (contiguous, positive sizes, summing to `PAGE_SIZE`) and has no two adjacent HOLEs;
- the pages are strictly ascending by base;
- every page lies below the counter.

`Pages.Allocated` is the set of all PROCESS segments of a state. Malloc adds exactly the block it returns to this set, and free removes exactly the block at its address.

`mmap` is a parameter. `HostMap` is `Mapped(phys)` or `MapFailed`, meaning
whatever the host would answer. NULL is `Option.None`.

## Model

| member | source | states |
|---|---|---|
| Pages.Init | MeMS/MeMS-Skeleton-code-main/mems.h:58-61 | mems_init gives an empty main chain with the counter at 1000, and that state satisfies the invariant |
| Pages.Find | MeMS/MeMS-Skeleton-code-main/mems.h:96-121 | the nested page/segment scan returns a matching position with no match before it in scan order, and returns None exactly when no position matches |
| Pages.FindReturnsFirstMatch | MeMS/MeMS-Skeleton-code-main/mems.h:96-121 | a matching position with no earlier match is exactly what the scan stops at |
| Pages.InsertPos | MeMS/MeMS-Skeleton-code-main/mems.h:158-171 | every page before the new one has a base not above the new address, the page right after it, if any, has a base at or above it, and the new page goes first only when the list is empty or the head's base is above the new address |
| Pages.InsertSorted | MeMS/MeMS-Skeleton-code-main/mems.h:157-171 | the result is one page longer: the new page sits at the sorted insertion point `InsertPos`, the pages in front of it are the old pages in front of that point, and the pages behind it are the old pages from that point on |
| Pages.InsertSortedKeepsOrder | MeMS/MeMS-Skeleton-code-main/mems.h:157-171 | inserting a page with a fresh base keeps the main chain strictly ascending and is a pure insertion: the other pages keep their relative order |
| Pages.InsertSortedAppends | MeMS/MeMS-Skeleton-code-main/mems.h:157-171 | when every base is below the new address, as the counter guarantees, the new page goes at the end |
| Pages.SegmentsApart | MeMS/MeMS-Skeleton-code-main/mems.h:36-54 | in a valid state two different segments, on one page or on two, cover disjoint address runs |
| Alloc.Place | MeMS/MeMS-Skeleton-code-main/mems.h:100-116 | the chosen HOLE becomes PROCESS of the requested size; when it was strictly larger, a HOLE of the remainder at offset+size follows it; everything before and after is unchanged |
| Alloc.PlaceKeepsPageChain | MeMS/MeMS-Skeleton-code-main/mems.h:102-116 | placing a request in a HOLE keeps the page tiled with no adjacent HOLEs, adds exactly the new block to the allocated set, and moves exactly size bytes from free to allocated |
| Alloc.NewChain | MeMS/MeMS-Skeleton-code-main/mems.h:140-155 | a new page's chain is tiled, has no adjacent HOLEs, starts at the new address, and holds exactly the requested block plus the rest as free |
| Alloc.NewPageAsWritten | MeMS/MeMS-Skeleton-code-main/mems.h:123-173 | the new-page path moves the counter by one page before mapping; it returns an address exactly when the mapping succeeded, and on failure adds no page |
| Alloc.NewPageAsWrittenKeepsValid | MeMS/MeMS-Skeleton-code-main/mems.h:123-173 | for 0 < size <= PAGE_SIZE the new-page path keeps the invariant and appends the page at the end of the main chain |
| Alloc.OversizeNewPageBreaksTiling | MeMS/MeMS-Skeleton-code-main/mems.h:140-155 | for size > PAGE_SIZE the new-page path as written produces a state that is not valid |
| Alloc.NewPage | MeMS/MeMS-Skeleton-code-main/mems.h:123-173 | the corrected new-page path refuses requests larger than a page with no state change, and otherwise keeps the invariant |
| Alloc.Malloc | MeMS/MeMS-Skeleton-code-main/mems.h:92-174 | size 0 returns NULL with nothing changed; the counter stays put or moves by one page; no page disappears; a returned address starts a PROCESS segment of exactly the requested size. This is the corrected malloc: its new-page path refuses a request larger than a page with NULL, where the code as written maps it (see Findings) |
| Alloc.MallocPrefersHoles | MeMS/MeMS-Skeleton-code-main/mems.h:96-121 | when any HOLE fits, malloc succeeds without mapping a page or moving the counter |
| Alloc.MallocReusesFirstFit | MeMS/MeMS-Skeleton-code-main/mems.h:96-121 | the address returned is the offset of the first fitting HOLE in scan order, that page's chain becomes the split chain, and every other page and the counter are unchanged |
| Alloc.MallocNewPage | MeMS/MeMS-Skeleton-code-main/mems.h:123-173 | with no fitting HOLE and a successful mapping, the address is the old counter, the counter grows by PAGE_SIZE, and the page PROCESS[va,size] (+HOLE[va+size, PAGE_SIZE-size] when size < PAGE_SIZE) is appended |
| Alloc.MallocMapFailure | MeMS/MeMS-Skeleton-code-main/mems.h:124-129 | when mmap fails, malloc returns NULL and adds no page, but the counter has still moved on by one page |
| Alloc.MallocRejectsOversize | MeMS/MeMS-Skeleton-code-main/mems.h:92-174 | in a valid state a request larger than a page returns NULL and changes nothing (corrected behaviour) |
| Alloc.MallocPreservesValid | MeMS/MeMS-Skeleton-code-main/mems.h:92-174 | malloc keeps tiling, coalescing, page order and the counter bound |
| Alloc.MallocAccounting | MeMS/MeMS-Skeleton-code-main/mems.h:92-174 | a successful malloc adds exactly size allocated bytes and takes size free bytes, plus PAGE_SIZE free bytes when it mapped a page |
| Alloc.MallocTakesFreeBytes | MeMS/MeMS-Skeleton-code-main/mems.h:96-155 | every byte of the block malloc returns lay in no PROCESS segment before the call: it comes from a HOLE or from a new page above every existing one |
| Alloc.MallocAllocated | MeMS/MeMS-Skeleton-code-main/mems.h:92-174 | a malloc that returns an address adds exactly the block PROCESS(size, address) to the allocated segments, a block that was not allocated before; a malloc that returns NULL allocates nothing |
| Alloc.MallocAddsAtMostOnePage | MeMS/MeMS-Skeleton-code-main/mems.h:123-171 | malloc adds at most one page, and only when the counter moved on |
| Dealloc.ReleaseAt | MeMS/MeMS-Skeleton-code-main/mems.h:277-298 | freeing segment i leaves the segments before and after the merge window as they were and collapses the window (the segment with its HOLE neighbours) to one HOLE starting at the window's start; the chain shrinks by the window's length minus one |
| Dealloc.ReleaseMergesWindow | MeMS/MeMS-Skeleton-code-main/mems.h:277-298 | freeing segment i replaces the window of it and its HOLE neighbours with one HOLE starting at the window's start and covering all its bytes; the rest of the chain is unchanged |
| Dealloc.ReleaseKeepsPageChain | MeMS/MeMS-Skeleton-code-main/mems.h:277-298 | freeing a PROCESS segment keeps its page tiled with no adjacent HOLEs and the same base, removes exactly that block from the allocated set, and moves exactly its bytes to free |
| Dealloc.Free | MeMS/MeMS-Skeleton-code-main/mems.h:270-305 | free never moves the counter, adds or removes pages, or changes physical bases; an address that starts no PROCESS segment leaves the state unchanged |
| Dealloc.FreeReleasesBlock | MeMS/MeMS-Skeleton-code-main/mems.h:270-305 | in a valid state free releases exactly the PROCESS segment at the address and leaves every other page as it was |
| Dealloc.FreePreservesValid | MeMS/MeMS-Skeleton-code-main/mems.h:270-305 | free keeps the invariant |
| Dealloc.FreeAllocated | MeMS/MeMS-Skeleton-code-main/mems.h:270-305 | free(a) removes exactly the allocated segment that starts at a, and removes nothing when no segment starts there |
| Dealloc.FreeAccounting | MeMS/MeMS-Skeleton-code-main/mems.h:270-305 | freeing a block moves exactly its size from allocated to free bytes |
| Translate.GetAsWritten | MeMS/MeMS-Skeleton-code-main/mems.h:247-263 | mems_get as written returns NULL exactly when no PROCESS segment contains the address |
| Translate.AsWrittenTranslatesThroughFirstOwner | MeMS/MeMS-Skeleton-code-main/mems.h:250-262 | as written, a non-NULL result is the page's physical base plus the distance from the first containing PROCESS segment's own offset |
| Translate.AsWrittenAliases | MeMS/MeMS-Skeleton-code-main/mems.h:254-256 | as written, the first bytes of any two PROCESS segments on one page translate to the same physical address, the page's base |
| Translate.Get | MeMS/MeMS-Skeleton-code-main/mems.h:247-263 | the corrected mems_get returns NULL exactly when no PROCESS segment contains the address |
| Translate.GetTranslatesThroughFirstOwner | MeMS/MeMS-Skeleton-code-main/mems.h:250-262 | a non-NULL corrected result comes from the first containing PROCESS segment: page physical base plus the bytes of the segments before it plus the distance into it |
| Translate.GetFindsOwner | MeMS/MeMS-Skeleton-code-main/mems.h:247-263 | corrected: in a valid state any PROCESS segment containing v is its owner, and v maps to the page's physical base plus v's distance from the page's virtual base |
| Translate.GetKeepsAddressesApart | MeMS/MeMS-Skeleton-code-main/mems.h:254-256 | corrected: in a valid state two different live addresses on one page translate to different physical addresses |
| Translate.GetKeepsLiveAddressesApart | MeMS/MeMS-Skeleton-code-main/mems.h:247-263 | corrected: in a valid state whose pages the host placed at non-overlapping physical ranges, any two different live addresses, on one page or on two, translate to different physical addresses |
| Translate.BlockTranslates | MeMS/MeMS-Skeleton-code-main/mems.h:247-263 | corrected: in a valid state every byte a+d of a block at a translates to the page's physical base plus a+d's distance from the page's virtual base |
| Translate.MallocThenGet | MeMS/MeMS-Skeleton-code-main/mems.h:92-174 | corrected: right after a = malloc(size), every a+d with d < size translates to the owning page's physical base plus a+d's distance from that page's virtual base |
| Translate.FreeThenGet | MeMS/MeMS-Skeleton-code-main/mems.h:270-305 | after freeing a block, no address inside it translates |
| Translate.SameOwnersSameTranslation | MeMS/MeMS-Skeleton-code-main/mems.h:247-263 | two valid states with the same PROCESS owners of v, on pages with the same physical and virtual bases, translate v alike |
| Translate.FreeKeepsOtherTranslations | MeMS/MeMS-Skeleton-code-main/mems.h:270-305 | freeing a block leaves the translation of every address outside it unchanged |
| Translate.MallocHandsOutUnmappedBytes | MeMS/MeMS-Skeleton-code-main/mems.h:92-174 | corrected: no byte of the block malloc returns translated before the call, so a new block never overlaps a live one |
| Translate.MallocKeepsOtherTranslations | MeMS/MeMS-Skeleton-code-main/mems.h:92-174 | malloc leaves the translation of every address outside the new block unchanged |
| Stats.CollectStats | MeMS/MeMS-Skeleton-code-main/mems.h:189-214 | the counting pass reports the number of pages as both pages used and main chain length, the total HOLE bytes as unused space, and the total segment count as sub-chain length |
| Stats.StatsAccounting | MeMS/MeMS-Skeleton-code-main/mems.h:189-214 | in a valid state unused plus allocated bytes is exactly pages used times PAGE_SIZE |
| Stats.SubChainsAtLeastMain | MeMS/MeMS-Skeleton-code-main/mems.h:189-214 | every page has a segment, so the sub-chain length is at least the main chain length |
| Session.Step | MeMS/MeMS-Skeleton-code-main/mems.h:92-305 | one malloc or free call keeps the invariant, moves the counter by zero or one page, and adds at most one page, only when the counter moved; free returns nothing and keeps the counter; the allocated segments change as a client's books say: a returned block is added and a freed address's block is dropped |
| Session.Run | MeMS/MeMS-Skeleton-code-main/mems.h:58-305 | any sequence of calls keeps the invariant, the counter never goes back, pages are never given back, and each added page used up one page of the counter |
| Session.RunAllocated | MeMS/MeMS-Skeleton-code-main/mems.h:92-305 | after any sequence of calls a segment is allocated exactly when it was allocated at the start and never freed, or some malloc of the sequence returned it and no later free gave it back |
| Session.ReachableAllocatedAreHandedOut | MeMS/MeMS-Skeleton-code-main/mems.h:58-305 | from mems_init, the allocated segments are exactly the blocks malloc returned and no later free gave back |
| Scenarios.FirstAllocation | MeMS/MeMS-Skeleton-code-main/mems.h:123-173 | the first request of size < 4096 on a fresh space returns 1000 and leaves one page [PROCESS size@1000, HOLE 4096-size@1000+size] with the counter at 5096 |
| Scenarios.ScenarioFirstAddress | MeMS/MeMS-Skeleton-code-main/mems.h:247-263 | after a = malloc(100) on a fresh space, a is 1000 and get(a) is the page's physical base |
| Scenarios.ScenarioSecondPage | MeMS/MeMS-Skeleton-code-main/mems.h:96-173 | after malloc(100), malloc(4000) does not fit the 3996-byte HOLE and maps a second page at 5096, appended with a 96-byte HOLE |
| Scenarios.ScenarioReuse | MeMS/MeMS-Skeleton-code-main/mems.h:96-121 | malloc(100), free(1000), malloc(50) gives back 1000 and leaves a 4046-byte HOLE at 1050 |
| Scenarios.ScenarioCollapse | MeMS/MeMS-Skeleton-code-main/mems.h:277-298 | malloc(200), malloc(300) at 1200, then freeing both, collapses the page into one 4096-byte HOLE |
| Scenarios.ScenarioSharedPage | MeMS/MeMS-Skeleton-code-main/mems.h:254-256 | after malloc(100) and malloc(200) on a fresh space, 1000 and 1100 both translate to the page's base as written; corrected, 1100 translates 100 bytes further on |
| Scenarios.ScenarioWholePage | MeMS/MeMS-Skeleton-code-main/mems.h:146-155 | malloc(4096) on a fresh space takes the whole page and leaves no HOLE |

## Left out

- `mems_finish` (mems.h:70-78) is not modelled. It only unmaps pages and releases node memory, which are host and C-heap effects.
- `mmap` is not called. Its answer is the `HostMap` parameter: the physical base, or failure.
- The model does not promise that different mmap answers never overlap, since that is the host's promise. `Translate.PhysicallyApart` states it, and `Translate.GetKeepsLiveAddressesApart` takes it as a hypothesis.
- The printing in `mems_print_stats` is not modelled. Only its counting pass is (`Stats.CollectStats`).
- C heap allocation of nodes and segments, pointer casts, and the `prev`/`next` back-links are not modelled. Chains are sequences.
- Thread safety is not modelled. The code has none.
- `size_t` wrap-around is not modelled. Sizes and addresses are unbounded naturals. The counter would have to pass 2^64 for this to matter.
- The counter on mapping failure follows the code. The code moves `next_virtual_address` on before it checks for failure. A failed mapping does not roll the counter back, and the model keeps that leak (`Alloc.MallocMapFailure`).
- A stronger reuse law is not claimed: free a block, ask again for at most its size, get the same address back. It does not hold under first fit whenever an earlier HOLE also fits. It also fails when the freed block merges with a HOLE predecessor that is too small on its own: with HOLE 10 at 1000, PROCESS 100 at 1010 and HOLE 3986 at 1110, freeing 1010 leaves one HOLE of 4096 at 1000, and malloc(50) then returns 1000, not 1010. `Alloc.MallocReusesFirstFit` states the form that does hold.
- No separate error for an invalid size is modelled. The code returns NULL for size 0 and on mapping failure, and so does the model (`Option.None`).
- Translate.Get: its own contract states only when the result is NULL (exactly when no owner exists). The value of a non-NULL result is stated by `Translate.GetTranslatesThroughFirstOwner` and `Translate.GetFindsOwner`.
- Dealloc.ReleaseAt: its own contract does not give the size of the merged HOLE; `Dealloc.ReleaseMergesWindow` states it (all bytes of the window).
- Pages.InsertSorted: its own contract does not state that the result stays strictly ascending; `Pages.InsertSortedKeepsOrder` states it for a page whose base is not already in the list.
- Translate.GetAsWritten: likewise, the value of a non-NULL result is stated by `Translate.AsWrittenTranslatesThroughFirstOwner`.

## Findings

| source | as written | input that shows it | evidently intended | confidence | as-written member | corrected member |
|---|---|---|---|---|---|---|
| MeMS/MeMS-Skeleton-code-main/mems.h:140-155 | a request larger than `PAGE_SIZE` with no fitting HOLE maps one page and records a PROCESS segment of the full size, longer than its page, so the page's segments no longer tile it (and `mems_get` translates past the mapping) | `mems_malloc(5000)` on any valid state, with mmap succeeding | requests must not exceed one page; they should be refused (NULL) | not executed | Alloc.OversizeNewPageBreaksTiling | Alloc.NewPage |
| MeMS/MeMS-Skeleton-code-main/mems.h:254-256 | `mems_get` adds the address's distance from its *segment's* offset to the page's physical base, so every block on a page starts at the page's first physical byte and blocks on one page share memory | `a = mems_malloc(100)`, `b = mems_malloc(200)` on a fresh space: `b` is 1100 on the same page, and `mems_get(a) == mems_get(b)` is the page's physical base | the distance from the *page's* virtual base, so blocks use disjoint physical bytes; the rest of the model uses this corrected translation | not executed | Translate.AsWrittenAliases | Translate.Get |

=== FILE: alloc.dfy ===
/** mems_malloc: first-fit reuse of a HOLE, splitting it when it is larger
    than the request, or else a fresh page from the host, inserted in address
    order. */
module Alloc {
  import opened Wrappers
  import opened Segments
  import opened Pages

  /** What the host mapping call (mmap) answered: a physical base, or MAP_FAILED. */
  datatype HostMap = Mapped(phys: nat) | MapFailed

  /** The value mems_malloc returns (None for NULL) and the state after the call. */
  datatype Outcome = Outcome(addr: Option<nat>, after: FreeList)

  /** Allocate `size` bytes from the HOLE at index `i`: it becomes PROCESS with
      the requested size, and a strictly larger hole leaves its remainder as a
      new HOLE right behind it. */
  function Place(c: seq<Segment>, i: nat, size: nat): (r: seq<Segment>)
    requires i < |c| && size <= c[i].size
    ensures |r| == if size < c[i].size then |c| + 1 else |c|
    ensures r[..i] == c[..i]
    ensures r[i] == Segment(Process, size, c[i].offset)
    ensures size < c[i].size ==>
      (r[i + 1] == Segment(Hole, c[i].size - size, c[i].offset + size) && r[i + 2..] == c[i + 1..])
    ensures size == c[i].size ==> r[i + 1..] == c[i + 1..]
  {
    if size < c[i].size then
      Splice(c, i, 1, [Segment(Process, size, c[i].offset),
                       Segment(Hole, c[i].size - size, c[i].offset + size)])
    else
      Splice(c, i, 1, [Segment(Process, size, c[i].offset)])
  }

  /** The run that replaces the chosen HOLE. */
  function PlacedRun(h: Segment, size: nat): seq<Segment>
    requires size <= h.size
  {
    if size < h.size then [Segment(Process, size, h.offset), Segment(Hole, h.size - size, h.offset + size)]
    else [Segment(Process, size, h.offset)]
  }

  lemma PlacedRunFacts(h: Segment, size: nat)
    requires 0 < size <= h.size
    ensures |PlacedRun(h, size)| > 0 && PlacedRun(h, size)[0] == Segment(Process, size, h.offset)
    ensures Contiguous(PlacedRun(h, size)) && PositiveSizes(PlacedRun(h, size))
    ensures Bytes(PlacedRun(h, size), Process) == size
    ensures Bytes(PlacedRun(h, size), Hole) == h.size - size
    ensures PlacedRun(h, size)[|PlacedRun(h, size)| - 1].kind == Hole ==> size < h.size
  {
    var p := Segment(Process, size, h.offset);
    BytesSingleton(p, Process);
    BytesSingleton(p, Hole);
    if size < h.size {
      var q := Segment(Hole, h.size - size, h.offset + size);
      BytesSingleton(q, Process);
      BytesSingleton(q, Hole);
      BytesPair(p, q, Process);
      BytesPair(p, q, Hole);
    }
  }

  lemma PlaceKeepsTiling(c: seq<Segment>, i: nat, size: nat)
    requires Tiles(c) && i < |c| && 0 < size <= c[i].size
    ensures Tiles(Place(c, i, size)) && Place(c, i, size)[0].offset == c[0].offset
  {
    PlacedRunFacts(c[i], size);
    assert Place(c, i, size) == Splice(c, i, 1, PlacedRun(c[i], size));
    assert c[i..i + 1] == [c[i]];
    BytesSingleton(c[i], Process);
    BytesSingleton(c[i], Hole);
    SpliceKeepsTiling(c, i, 1, PlacedRun(c[i], size));
  }

  lemma PlaceKeepsCoalesced(c: seq<Segment>, i: nat, size: nat)
    requires NoAdjacentHoles(c) && i < |c| && c[i].kind == Hole && 0 < size <= c[i].size
    ensures NoAdjacentHoles(Place(c, i, size))
  {
    var mid := PlacedRun(c[i], size);
    PlacedRunFacts(c[i], size);
    assert Place(c, i, size) == c[..i] + mid + c[i + 1..];
    NoAdjacentHolesSlice(c, 0, i);
    NoAdjacentHolesSlice(c, i + 1, |c|);
    if i + 1 < |c| {
      assert c[i + 1].kind != Hole;
    }
    NoAdjacentHolesConcat(c[..i], mid);
    NoAdjacentHolesConcat(c[..i] + mid, c[i + 1..]);
  }

  lemma PlaceBytesOfKind(c: seq<Segment>, i: nat, size: nat, kind: SegmentType)
    requires i < |c| && size <= c[i].size
    ensures Bytes(Place(c, i, size), kind) + Bytes([c[i]], kind)
         == Bytes(c, kind) + Bytes(PlacedRun(c[i], size), kind)
  {
    assert Place(c, i, size) == Splice(c, i, 1, PlacedRun(c[i], size));
    assert c[i..i + 1] == [c[i]];
    BytesSplice(c, i, 1, PlacedRun(c[i], size), kind);
  }

  lemma PlaceBytes(c: seq<Segment>, i: nat, size: nat)
    requires i < |c| && c[i].kind == Hole && 0 < size <= c[i].size
    ensures Bytes(Place(c, i, size), Hole) + size == Bytes(c, Hole)
    ensures Bytes(Place(c, i, size), Process) == Bytes(c, Process) + size
  {
    PlacedRunFacts(c[i], size);
    BytesSingleton(c[i], Process);
    BytesSingleton(c[i], Hole);
    PlaceBytesOfKind(c, i, size, Process);
    PlaceBytesOfKind(c, i, size, Hole);
  }

  lemma PlaceOwned(c: seq<Segment>, i: nat, size: nat)
    requires i < |c| && c[i].kind == Hole && 0 < size <= c[i].size
    ensures Owned(Place(c, i, size)) == Owned(c) + {Segment(Process, size, c[i].offset)}
  {
    var mid := PlacedRun(c[i], size);
    var r := Place(c, i, size);
    assert r == c[..i] + mid + c[i + 1..];
    assert c == c[..i] + [c[i]] + c[i + 1..];
    assert Owned(mid) == {Segment(Process, size, c[i].offset)};
    forall x | x in r
      ensures x in c[..i] || x in mid || x in c[i + 1..]
    {
    }
  }

  /** Placing a request in a HOLE keeps the page tiled and coalesced, keeps its
      base, adds exactly one allocated segment, and takes `size` bytes from the
      page's free space. */
  lemma PlaceKeepsPageChain(c: seq<Segment>, i: nat, size: nat)
    requires PageChain(c) && i < |c| && c[i].kind == Hole && 0 < size <= c[i].size
    ensures PageChain(Place(c, i, size))
    ensures Place(c, i, size)[0].offset == c[0].offset
    ensures Owned(Place(c, i, size)) == Owned(c) + {Segment(Process, size, c[i].offset)}
    ensures Bytes(Place(c, i, size), Hole) + size == Bytes(c, Hole)
    ensures Bytes(Place(c, i, size), Process) == Bytes(c, Process) + size
  {
    PlaceKeepsTiling(c, i, size);
    PlaceKeepsCoalesced(c, i, size);
    PlaceBytes(c, i, size);
    PlaceOwned(c, i, size);
  }

  /** The chain of a freshly mapped page at virtual base `va`: the allocated
      segment, then a trailing HOLE unless the request fills the page. */
  function NewChain(va: nat, size: nat): (c: seq<Segment>)
    ensures 0 < size <= PAGE_SIZE ==> PageChain(c) && c[0].offset == va
    ensures 0 < size <= PAGE_SIZE ==> Bytes(c, Hole) + size == PAGE_SIZE && Bytes(c, Process) == size
    ensures 0 < size <= PAGE_SIZE ==> Owned(c) == {Segment(Process, size, va)}
  {
    var page := Segment(Hole, PAGE_SIZE, va);
    if 0 < size <= PAGE_SIZE then
      PlacedRunFacts(page, size);
      assert Sum(PlacedRun(page, size)) == PAGE_SIZE;
      PlacedRun(page, size)
    else [Segment(Process, size, va)]
  }

  /** The new-page path exactly as the C code runs it: the counter is advanced
      before the host is asked, and is not rolled back on failure; and no
      check stops a request larger than a page. */
  function NewPageAsWritten(s: FreeList, size: nat, host: HostMap): (o: Outcome)
    requires ChainsNonEmpty(s.pages)
    ensures o.after.nextVA == s.nextVA + PAGE_SIZE
    ensures o.addr.Some? <==> host.Mapped?
    ensures o.addr.None? ==> o.after.pages == s.pages
  {
    var va := s.nextVA;
    var advanced := s.(nextVA := va + PAGE_SIZE);
    match host
    case MapFailed => Outcome(None, advanced)
    case Mapped(phys) =>
      Outcome(Some(va), advanced.(pages := InsertSorted(s.pages, Node(phys, NewChain(va, size)), va)))
  }

  /** Within a page's size, the as-written new-page path keeps the invariant:
      the counter is above every page, so the new page is appended. */
  lemma NewPageAsWrittenKeepsValid(s: FreeList, size: nat, host: HostMap)
    requires ChainsNonEmpty(s.pages)
    ensures Valid(s) && 0 < size <= PAGE_SIZE ==> Valid(NewPageAsWritten(s, size, host).after)
    ensures Valid(s) && 0 < size <= PAGE_SIZE && host.Mapped? ==>
      NewPageAsWritten(s, size, host).after.pages == s.pages + [Node(host.phys, NewChain(s.nextVA, size))]
  {
    if Valid(s) && 0 < size <= PAGE_SIZE && host.Mapped? {
      var n := Node(host.phys, NewChain(s.nextVA, size));
      InsertSortedAppends(s.pages, n, s.nextVA);
      AppendPageKeepsValid(s, n);
    }
  }

  /** The new-page path with requests larger than a page rejected (NULL, no
      state change), since each mapping is exactly one page (mems.h:128). */
  function NewPage(s: FreeList, size: nat, host: HostMap): (o: Outcome)
    requires ChainsNonEmpty(s.pages)
    ensures size > PAGE_SIZE ==> o == Outcome(None, s)
    ensures Valid(s) && 0 < size ==> Valid(o.after)
  {
    if size > PAGE_SIZE then Outcome(None, s)
    else
      NewPageAsWrittenKeepsValid(s, size, host);
      NewPageAsWritten(s, size, host)
  }

  /** A request larger than a page makes the as-written new-page path build a
      segment longer than its page, so the resulting state is not tiled. */
  lemma OversizeNewPageBreaksTiling(s: FreeList, size: nat, phys: nat)
    requires Valid(s) && size > PAGE_SIZE
    ensures !Valid(NewPageAsWritten(s, size, Mapped(phys)).after)
  {
    var n := Node(phys, NewChain(s.nextVA, size));
    var after := NewPageAsWritten(s, size, Mapped(phys)).after;
    InsertSortedAppends(s.pages, n, s.nextVA);
    assert after.pages[|s.pages|] == n;
    assert n.chain == [Segment(Process, size, s.nextVA)];
    BytesSingleton(n.chain[0], Process);
    BytesSingleton(n.chain[0], Hole);
    assert !PageChain(after.pages[|s.pages|].chain);
  }

  /** mems_malloc. `host` is what mmap would answer if it were called. */
  function Malloc(s: FreeList, size: nat, host: HostMap): (o: Outcome)
    requires ChainsNonEmpty(s.pages)
    ensures size == 0 ==> o == Outcome(None, s)
    ensures o.after.nextVA == s.nextVA || o.after.nextVA == s.nextVA + PAGE_SIZE
    ensures |o.after.pages| >= |s.pages|
    ensures o.addr.Some? ==> exists l :: ValidLoc(o.after.pages, l) && At(o.after.pages, l) == Segment(Process, size, o.addr.value)
  {
    if size == 0 then Outcome(None, s)
    else match Find(s.pages, FitsHole(size))
      case Some(l) =>
        var p := s.pages[l.page];
        var pages' := s.pages[l.page := p.(chain := Place(p.chain, l.seg, size))];
        assert At(pages', l) == Segment(Process, size, At(s.pages, l).offset);
        Outcome(Some(At(s.pages, l).offset), s.(pages := pages'))
      case None =>
        var o := NewPage(s, size, host);
        assert o.addr.Some? ==> At(o.after.pages, Loc(InsertPos(s.pages, s.nextVA), 0)) == Segment(Process, size, s.nextVA);
        o
  }

  /** A HOLE that fits: mems_malloc reuses existing space, so no page is
      created and the counter stays where it was. */
  lemma MallocPrefersHoles(s: FreeList, size: nat, host: HostMap, l: Loc)
    requires ChainsNonEmpty(s.pages) && 0 < size
    requires ValidLoc(s.pages, l) && At(s.pages, l).kind == Hole && At(s.pages, l).size >= size
    ensures Malloc(s, size, host).addr.Some?
    ensures Malloc(s, size, host).after.nextVA == s.nextVA
    ensures |Malloc(s, size, host).after.pages| == |s.pages|
  {
  }

  /** First fit: when the HOLE at `l` fits and no HOLE before it in scan order
      does, mems_malloc returns its offset, places the request there, and
      leaves every other page and the counter as they were. */
  lemma MallocReusesFirstFit(s: FreeList, size: nat, host: HostMap, l: Loc)
    requires ChainsNonEmpty(s.pages) && 0 < size
    requires ValidLoc(s.pages, l) && At(s.pages, l).kind == Hole && At(s.pages, l).size >= size
    requires forall e :: ValidLoc(s.pages, e) && Before(e, l) ==>
      !(At(s.pages, e).kind == Hole && At(s.pages, e).size >= size)
    ensures Malloc(s, size, host).addr == Some(At(s.pages, l).offset)
    ensures Malloc(s, size, host).after == FreeList(
      s.pages[l.page := Node(s.pages[l.page].phys, Place(s.pages[l.page].chain, l.seg, size))],
      s.nextVA)
  {
    FindReturnsFirstMatch(s.pages, FitsHole(size), l);
  }

  /** No HOLE fits a request of at most a page and the host maps a page: the
      request gets the counter's address, the counter moves on by one page,
      and the new page (the request, then the remainder as a HOLE when there
      is one) goes at the end of the list. */
  lemma MallocNewPage(s: FreeList, size: nat, phys: nat)
    requires Valid(s) && 0 < size <= PAGE_SIZE
    requires forall l :: ValidLoc(s.pages, l) ==> !(At(s.pages, l).kind == Hole && At(s.pages, l).size >= size)
    ensures Malloc(s, size, Mapped(phys)).addr == Some(s.nextVA)
    ensures Malloc(s, size, Mapped(phys)).after.nextVA == s.nextVA + PAGE_SIZE
    ensures Malloc(s, size, Mapped(phys)).after.pages == s.pages + [Node(phys,
      if size < PAGE_SIZE
      then [Segment(Process, size, s.nextVA), Segment(Hole, PAGE_SIZE - size, s.nextVA + size)]
      else [Segment(Process, size, s.nextVA)])]
  {
    ValidChainsNonEmpty(s);
    NewPageAsWrittenKeepsValid(s, size, Mapped(phys));
  }

  /** When the host refuses the mapping, mems_malloc returns NULL and adds no
      page, but the counter has already moved on by one page. */
  lemma MallocMapFailure(s: FreeList, size: nat)
    requires ChainsNonEmpty(s.pages) && 0 < size <= PAGE_SIZE
    requires forall l :: ValidLoc(s.pages, l) ==> !(At(s.pages, l).kind == Hole && At(s.pages, l).size >= size)
    ensures Malloc(s, size, MapFailed) == Outcome(None, FreeList(s.pages, s.nextVA + PAGE_SIZE))
  {
  }

  /** In a valid state no HOLE is larger than a page, so a request larger than
      a page is refused outright and nothing changes. */
  lemma MallocRejectsOversize(s: FreeList, size: nat, host: HostMap)
    requires Valid(s) && size > PAGE_SIZE
    ensures Malloc(s, size, host) == Outcome(None, s)
  {
    ValidChainsNonEmpty(s);
    forall l | ValidLoc(s.pages, l)
      ensures !Matches(FitsHole(size), At(s.pages, l))
    {
      SegmentInsidePage(s, l);
    }
  }

  /** mems_malloc keeps the invariant of reachable states. */
  lemma MallocPreservesValid(s: FreeList, size: nat, host: HostMap)
    requires Valid(s)
    ensures ChainsNonEmpty(s.pages) && Valid(Malloc(s, size, host).after)
  {
    ValidChainsNonEmpty(s);
    if size > 0 {
      match Find(s.pages, FitsHole(size)) {
        case Some(l) =>
          var c := s.pages[l.page].chain;
          PlaceKeepsPageChain(c, l.seg, size);
          ReplacePageKeepsValid(s, l.page, Place(c, l.seg, size));
        case None =>
      }
    }
  }

  /** A successful mems_malloc moves exactly `size` bytes from free to
      allocated; when it mapped a new page, that page's bytes join the total. */
  lemma MallocAccounting(s: FreeList, size: nat, host: HostMap)
    requires Valid(s)
    requires ChainsNonEmpty(s.pages) && Malloc(s, size, host).addr.Some?
    ensures PagesBytes(Malloc(s, size, host).after.pages, Process) == PagesBytes(s.pages, Process) + size
    ensures Malloc(s, size, host).after.nextVA == s.nextVA ==>
      PagesBytes(Malloc(s, size, host).after.pages, Hole) + size == PagesBytes(s.pages, Hole)
    ensures Malloc(s, size, host).after.nextVA != s.nextVA ==>
      PagesBytes(Malloc(s, size, host).after.pages, Hole) + size == PagesBytes(s.pages, Hole) + PAGE_SIZE
  {
    match Find(s.pages, FitsHole(size)) {
      case Some(l) =>
        var c := s.pages[l.page].chain;
        var p' := s.pages[l.page].(chain := Place(c, l.seg, size));
        PlaceBytes(c, l.seg, size);
        PagesBytesUpdate(s.pages, l.page, p', Process);
        PagesBytesUpdate(s.pages, l.page, p', Hole);
      case None =>
        NewPageAsWrittenKeepsValid(s, size, host);
        var n := Node(host.phys, NewChain(s.nextVA, size));
        PagesBytesAppend(s.pages, n, Process);
        PagesBytesAppend(s.pages, n, Hole);
    }
  }

  /** mems_malloc adds at most one page, and only when the counter moved on:
      pages are never released. */
  lemma MallocAddsAtMostOnePage(s: FreeList, size: nat, host: HostMap)
    requires ChainsNonEmpty(s.pages)
    ensures var o := Malloc(s, size, host);
      || |o.after.pages| == |s.pages|
      || (|o.after.pages| == |s.pages| + 1 && o.after.nextVA == s.nextVA + PAGE_SIZE)
  {
    if size > 0 && Find(s.pages, FitsHole(size)).None? && size <= PAGE_SIZE && host.Mapped? {
      var k := InsertPos(s.pages, s.nextVA);
      assert |s.pages[..k] + [Node(host.phys, NewChain(s.nextVA, size))] + s.pages[k..]| == |s.pages| + 1;
    }
  }

  /** Every byte mems_malloc hands out was free before the call: no PROCESS
      segment of the old state contains it, whether the block was carved
      from a HOLE or from a fresh page above the counter. */
  lemma MallocTakesFreeBytes(s: FreeList, size: nat, host: HostMap, a: nat, t: FreeList, v: nat)
    requires Valid(s) && ChainsNonEmpty(s.pages)
    requires Malloc(s, size, host) == Outcome(Some(a), t) && a <= v < a + size
    ensures forall l :: ValidLoc(s.pages, l) && At(s.pages, l).kind == Process ==> !At(s.pages, l).Contains(v)
  {
    match Find(s.pages, FitsHole(size)) {
      case Some(h) =>
        forall l | ValidLoc(s.pages, l) && At(s.pages, l).kind == Process
          ensures !At(s.pages, l).Contains(v)
        {
          SegmentsApart(s, l, h);
        }
      case None =>
        forall l | ValidLoc(s.pages, l) && At(s.pages, l).kind == Process
          ensures !At(s.pages, l).Contains(v)
        {
          SegmentInsidePage(s, l);
        }
    }
  }

  /** mems_malloc adds exactly the returned block to the allocated segments,
      a block no one held before; a call that returns NULL allocates
      nothing. */
  lemma MallocAllocated(s: FreeList, size: nat, host: HostMap)
    requires Valid(s) && ChainsNonEmpty(s.pages)
    ensures var o := Malloc(s, size, host);
      o.addr.None? ==> Allocated(o.after.pages) == Allocated(s.pages)
    ensures var o := Malloc(s, size, host);
      o.addr.Some? ==>
        && Segment(Process, size, o.addr.value) !in Allocated(s.pages)
        && Allocated(o.after.pages) == Allocated(s.pages) + {Segment(Process, size, o.addr.value)}
  {
    var o := Malloc(s, size, host);
    if o.addr.Some? {
      var a := o.addr.value;
      var b := Segment(Process, size, a);
      MallocTakesFreeBytes(s, size, host, a, o.after, a);
      AllocatedAt(s.pages, b);
      match Find(s.pages, FitsHole(size)) {
        case Some(l) =>
          var c := s.pages[l.page].chain;
          PlaceOwned(c, l.seg, size);
          AllocatedGrows(s.pages, l.page, Place(c, l.seg, size), {b});
        case None =>
          NewPageAsWrittenKeepsValid(s, size, host);
          AllocatedAppend(s.pages, Node(host.phys, NewChain(s.nextVA, size)));
      }
    }
  }
}

=== FILE: dealloc.dfy ===
/** mems_free: the PROCESS segment that starts at the given address becomes a
    HOLE and is merged with a HOLE predecessor and a HOLE successor. */
module Dealloc {
  import opened Wrappers
  import opened Segments
  import opened Pages

  /** Segment `j` absorbs segment `j + 1`, which leaves the chain. */
  function AbsorbNext(c: seq<Segment>, j: nat): seq<Segment>
    requires j + 1 < |c|
  {
    Splice(c, j, 2, [c[j].(size := c[j].size + c[j + 1].size)])
  }

  function AbsorbNextIfHole(c: seq<Segment>, j: nat): seq<Segment>
    requires j < |c|
  {
    if j + 1 < |c| && c[j + 1].kind == Hole then AbsorbNext(c, j) else c
  }

  /** The chain after freeing segment `i`, step by step as the C code does it:
      retag it as a HOLE; if its predecessor is a HOLE, the predecessor
      absorbs it and becomes the current segment; then, if the current
      segment's successor is a HOLE, the current segment absorbs it. The
      segments before and after the merged window stay as they were, and
      the window itself collapses to one HOLE at the window's start; the
      size of that HOLE is stated by `ReleaseMergesWindow`. */
  function ReleaseAt(c: seq<Segment>, i: nat): (r: seq<Segment>)
    requires i < |c|
    ensures |r| == |c| + 1 - (MergeHi(c, i) - MergeLo(c, i))
    ensures r[..MergeLo(c, i)] == c[..MergeLo(c, i)]
    ensures r[MergeLo(c, i) + 1..] == c[MergeHi(c, i)..]
    ensures r[MergeLo(c, i)].kind == Hole && r[MergeLo(c, i)].offset == c[MergeLo(c, i)].offset
  {
    var c1 := c[i := c[i].(kind := Hole)];
    if i > 0 && c1[i - 1].kind == Hole then AbsorbNextIfHole(AbsorbNext(c1, i - 1), i - 1)
    else AbsorbNextIfHole(c1, i)
  }

  /** First index of the window a release merges. */
  function MergeLo(c: seq<Segment>, i: nat): nat
    requires i < |c|
  {
    if i > 0 && c[i - 1].kind == Hole then i - 1 else i
  }

  /** One past the last index of the window a release merges. */
  function MergeHi(c: seq<Segment>, i: nat): nat
    requires i < |c|
  {
    if i + 1 < |c| && c[i + 1].kind == Hole then i + 2 else i + 1
  }

  /** Bytes covered by a window of one, two or three segments. */
  lemma SumOfOne(x: Segment)
    ensures Sum([x]) == x.size
  {
    BytesSingleton(x, Process);
    BytesSingleton(x, Hole);
  }

  lemma SumOfTwo(x: Segment, y: Segment)
    ensures Sum([x, y]) == x.size + y.size
  {
    SumOfOne(x);
    SumOfOne(y);
    BytesPair(x, y, Process);
    BytesPair(x, y, Hole);
  }

  lemma SumOfThree(x: Segment, y: Segment, z: Segment)
    ensures Sum([x, y, z]) == x.size + y.size + z.size
  {
    SumOfTwo(x, y);
    SumOfOne(z);
    assert [x, y, z] == [x, y] + [z];
    BytesConcat([x, y], [z], Process);
    BytesConcat([x, y], [z], Hole);
  }

  /** Neither neighbour is a HOLE: the segment is only retagged. */
  lemma ReleaseAlone(c: seq<Segment>, i: nat)
    requires i < |c| && MergeLo(c, i) == i && MergeHi(c, i) == i + 1
    ensures ReleaseAt(c, i) == Splice(c, i, 1, [Segment(Hole, Sum(c[i..i + 1]), c[i].offset)])
  {
    assert c[i..i + 1] == [c[i]];
    SumOfOne(c[i]);
  }

  /** Only the predecessor is a HOLE: it absorbs the segment. */
  lemma ReleaseIntoPrev(c: seq<Segment>, i: nat)
    requires i < |c| && MergeLo(c, i) == i - 1 && MergeHi(c, i) == i + 1
    ensures ReleaseAt(c, i) == Splice(c, i - 1, 2, [Segment(Hole, Sum(c[i - 1..i + 1]), c[i - 1].offset)])
  {
    assert c[i - 1..i + 1] == [c[i - 1], c[i]];
    SumOfTwo(c[i - 1], c[i]);
  }

  /** Only the successor is a HOLE: the segment absorbs it. */
  lemma ReleaseWithNext(c: seq<Segment>, i: nat)
    requires i < |c| && MergeLo(c, i) == i && MergeHi(c, i) == i + 2
    ensures ReleaseAt(c, i) == Splice(c, i, 2, [Segment(Hole, Sum(c[i..i + 2]), c[i].offset)])
  {
    assert c[i..i + 2] == [c[i], c[i + 1]];
    SumOfTwo(c[i], c[i + 1]);
  }

  /** Both neighbours are HOLEs: the predecessor absorbs the segment, then its
      successor. */
  lemma ReleaseBetween(c: seq<Segment>, i: nat)
    requires i < |c| && MergeLo(c, i) == i - 1 && MergeHi(c, i) == i + 2
    ensures ReleaseAt(c, i) == Splice(c, i - 1, 3, [Segment(Hole, Sum(c[i - 1..i + 2]), c[i - 1].offset)])
  {
    assert c[i - 1..i + 2] == [c[i - 1], c[i], c[i + 1]];
    SumOfThree(c[i - 1], c[i], c[i + 1]);
    var c1 := c[i := c[i].(kind := Hole)];
    var c2 := AbsorbNext(c1, i - 1);
    var h := Segment(Hole, c[i - 1].size + c[i].size, c[i - 1].offset);
    assert c2 == c[..i - 1] + [h] + c[i + 1..];
    assert c2[i] == c[i + 1];
  }

  /** Freeing segment `i` replaces the window [lo, hi) -- the segment, with
      its predecessor and its successor when they are HOLEs -- by one HOLE
      that starts where the window starts and covers all of its bytes. */
  lemma ReleaseMergesWindow(c: seq<Segment>, i: nat)
    requires i < |c|
    ensures MergeLo(c, i) <= i < MergeHi(c, i) <= |c|
    ensures ReleaseAt(c, i) == Splice(c, MergeLo(c, i), MergeHi(c, i) - MergeLo(c, i),
      [Segment(Hole, Sum(c[MergeLo(c, i)..MergeHi(c, i)]), c[MergeLo(c, i)].offset)])
  {
    var lo, hi := MergeLo(c, i), MergeHi(c, i);
    if lo == i && hi == i + 1 {
      ReleaseAlone(c, i);
    } else if lo == i {
      ReleaseWithNext(c, i);
    } else if hi == i + 1 {
      ReleaseIntoPrev(c, i);
    } else {
      ReleaseBetween(c, i);
    }
  }

  lemma ReleaseKeepsTiling(c: seq<Segment>, i: nat)
    requires Tiles(c) && i < |c|
    ensures Tiles(ReleaseAt(c, i)) && ReleaseAt(c, i)[0].offset == c[0].offset
  {
    var lo, hi := MergeLo(c, i), MergeHi(c, i);
    ReleaseMergesWindow(c, i);
    var m := Segment(Hole, Sum(c[lo..hi]), c[lo].offset);
    assert c[lo..hi][i - lo] == c[i];
    BytesCountsMember(c[lo..hi], i - lo);
    SumOfOne(m);
    SpliceKeepsTiling(c, lo, hi - lo, [m]);
  }

  lemma ReleaseKeepsCoalesced(c: seq<Segment>, i: nat)
    requires NoAdjacentHoles(c) && i < |c|
    ensures NoAdjacentHoles(ReleaseAt(c, i))
  {
    var lo, hi := MergeLo(c, i), MergeHi(c, i);
    ReleaseMergesWindow(c, i);
    var m := Segment(Hole, Sum(c[lo..hi]), c[lo].offset);
    NoAdjacentHolesSlice(c, 0, lo);
    NoAdjacentHolesSlice(c, hi, |c|);
    if lo > 0 {
      assert c[lo - 1].kind != Hole;
    }
    if hi < |c| {
      assert c[hi].kind != Hole;
    }
    NoAdjacentHolesConcat(c[..lo], [m]);
    NoAdjacentHolesConcat(c[..lo] + [m], c[hi..]);
  }

  /** The window a release merges holds exactly one PROCESS segment: the
      one being freed. */
  lemma WindowBytes(c: seq<Segment>, i: nat)
    requires i < |c| && c[i].kind == Process
    ensures MergeLo(c, i) <= i < MergeHi(c, i) <= |c|
    ensures Bytes(c[MergeLo(c, i)..MergeHi(c, i)], Process) == c[i].size
  {
    var lo, hi := MergeLo(c, i), MergeHi(c, i);
    var w := c[lo..hi];
    assert w[i - lo] == c[i];
    BytesOfLoneProcess(w, i - lo);
  }

  /** Replacing the window [lo, hi) by one HOLE of its bytes trades the
      window's bytes for the HOLE's. */
  lemma WindowSpliceBytes(c: seq<Segment>, lo: nat, hi: nat, r: seq<Segment>, kind: SegmentType)
    requires lo < hi <= |c|
    requires r == Splice(c, lo, hi - lo, [Segment(Hole, Sum(c[lo..hi]), c[lo].offset)])
    ensures Bytes(r, kind) + Bytes(c[lo..hi], kind)
         == Bytes(c, kind) + Bytes([Segment(Hole, Sum(c[lo..hi]), c[lo].offset)], kind)
  {
    BytesSplice(c, lo, hi - lo, [Segment(Hole, Sum(c[lo..hi]), c[lo].offset)], kind);
  }

  /** Per kind, a release trades the window's bytes for the merged HOLE's. */
  lemma ReleaseBytesOfKind(c: seq<Segment>, i: nat, kind: SegmentType)
    requires i < |c|
    ensures MergeLo(c, i) <= i < MergeHi(c, i) <= |c|
    ensures Bytes(ReleaseAt(c, i), kind) + Bytes(c[MergeLo(c, i)..MergeHi(c, i)], kind)
         == Bytes(c, kind) + Bytes([Segment(Hole, Sum(c[MergeLo(c, i)..MergeHi(c, i)]), c[MergeLo(c, i)].offset)], kind)
  {
    ReleaseMergesWindow(c, i);
    WindowSpliceBytes(c, MergeLo(c, i), MergeHi(c, i), ReleaseAt(c, i), kind);
  }

  lemma ReleaseBytes(c: seq<Segment>, i: nat)
    requires i < |c| && c[i].kind == Process
    ensures Bytes(ReleaseAt(c, i), Hole) == Bytes(c, Hole) + c[i].size
    ensures Bytes(ReleaseAt(c, i), Process) + c[i].size == Bytes(c, Process)
  {
    var lo, hi := MergeLo(c, i), MergeHi(c, i);
    var m := Segment(Hole, Sum(c[lo..hi]), c[lo].offset);
    WindowBytes(c, i);
    ReleaseBytesOfKind(c, i, Process);
    ReleaseBytesOfKind(c, i, Hole);
    BytesSingleton(m, Process);
    BytesSingleton(m, Hole);
  }

  /** A PROCESS segment of a released chain lies outside the merged window
      of the original chain. */
  lemma ReleasedProcessOutsideWindow(c: seq<Segment>, i: nat, x: Segment) returns (j: nat)
    requires i < |c| && x in ReleaseAt(c, i) && x.kind == Process
    ensures j < |c| && c[j] == x && (j < MergeLo(c, i) || MergeHi(c, i) <= j)
  {
    var lo, hi := MergeLo(c, i), MergeHi(c, i);
    var r := ReleaseAt(c, i);
    var k :| 0 <= k < |r| && r[k] == x;
    if k < lo {
      assert r[k] == r[..lo][k];
      j := k;
    } else {
      assert k > lo;
      assert r[k] == r[lo + 1..][k - lo - 1];
      j := k - lo - 1 + hi;
    }
  }

  lemma ReleaseOwnedShrinks(c: seq<Segment>, i: nat, x: Segment)
    requires PageChain(c) && i < |c| && c[i].kind == Process
    ensures x in ReleaseAt(c, i) && x.kind == Process ==> x in c && x != c[i]
  {
    if x in ReleaseAt(c, i) && x.kind == Process {
      var j := ReleasedProcessOutsideWindow(c, i, x);
      SegmentsDistinct(c, i, j);
    }
  }

  lemma ReleaseOwnedKeeps(c: seq<Segment>, i: nat, x: Segment)
    requires i < |c| && x in c && x.kind == Process && x != c[i]
    ensures x in ReleaseAt(c, i)
  {
    var lo, hi := MergeLo(c, i), MergeHi(c, i);
    ReleaseMergesWindow(c, i);
    var m := Segment(Hole, Sum(c[lo..hi]), c[lo].offset);
    var j :| 0 <= j < |c| && c[j] == x;
    assert j != i;
    assert j < lo || hi <= j;
    if j < lo {
      assert x in c[..lo];
    } else {
      assert x in c[hi..];
    }
    assert ReleaseAt(c, i) == c[..lo] + [m] + c[hi..];
  }

  lemma ReleaseOwned(c: seq<Segment>, i: nat)
    requires PageChain(c) && i < |c| && c[i].kind == Process
    ensures Owned(ReleaseAt(c, i)) == Owned(c) - {c[i]}
  {
    forall x | x in Owned(ReleaseAt(c, i))
      ensures x in Owned(c) - {c[i]}
    {
      ReleaseOwnedShrinks(c, i, x);
    }
    forall x | x in Owned(c) - {c[i]}
      ensures x in Owned(ReleaseAt(c, i))
    {
      ReleaseOwnedKeeps(c, i, x);
    }
  }

  /** Freeing an allocated segment keeps its page tiled and coalesced (no two
      adjacent HOLEs, given there were none), keeps the page's base, removes
      exactly that segment from the allocated ones, and returns its bytes to
      the page's free space. */
  lemma ReleaseKeepsPageChain(c: seq<Segment>, i: nat)
    requires PageChain(c) && i < |c| && c[i].kind == Process
    ensures PageChain(ReleaseAt(c, i)) && ReleaseAt(c, i)[0].offset == c[0].offset
    ensures Owned(ReleaseAt(c, i)) == Owned(c) - {c[i]}
    ensures Bytes(ReleaseAt(c, i), Hole) == Bytes(c, Hole) + c[i].size
    ensures Bytes(ReleaseAt(c, i), Process) + c[i].size == Bytes(c, Process)
  {
    ReleaseKeepsTiling(c, i);
    ReleaseKeepsCoalesced(c, i);
    ReleaseBytes(c, i);
    ReleaseOwned(c, i);
  }

  /** mems_free. An address that starts no PROCESS segment changes nothing. */
  function Free(s: FreeList, a: nat): (r: FreeList)
    ensures r.nextVA == s.nextVA && |r.pages| == |s.pages|
    ensures forall k :: 0 <= k < |s.pages| ==> r.pages[k].phys == s.pages[k].phys
    ensures (forall l :: ValidLoc(s.pages, l) ==> !Matches(BlockAt(a), At(s.pages, l))) ==> r == s
  {
    match Find(s.pages, BlockAt(a))
    case None => s
    case Some(l) =>
      var p := s.pages[l.page];
      s.(pages := s.pages[l.page := p.(chain := ReleaseAt(p.chain, l.seg))])
  }

  /** In a valid state the PROCESS segment at `a` is unique: mems_free releases
      exactly that one and leaves every other page as it was. */
  lemma FreeReleasesBlock(s: FreeList, a: nat, l: Loc)
    requires Valid(s) && ValidLoc(s.pages, l)
    requires At(s.pages, l).kind == Process && At(s.pages, l).offset == a
    ensures Free(s, a) == s.(pages := s.pages[l.page :=
      s.pages[l.page].(chain := ReleaseAt(s.pages[l.page].chain, l.seg))])
  {
    SegmentPositive(s, l);
    forall e | ValidLoc(s.pages, e) && Before(e, l)
      ensures !Matches(BlockAt(a), At(s.pages, e))
    {
      SegmentsApart(s, e, l);
      SegmentPositive(s, e);
    }
    FindReturnsFirstMatch(s.pages, BlockAt(a), l);
  }

  /** mems_free keeps the invariant of reachable states. */
  lemma FreePreservesValid(s: FreeList, a: nat)
    requires Valid(s)
    ensures Valid(Free(s, a))
  {
    match Find(s.pages, BlockAt(a)) {
      case None =>
      case Some(l) =>
        var c := s.pages[l.page].chain;
        ReleaseKeepsPageChain(c, l.seg);
        ReplacePageKeepsValid(s, l.page, ReleaseAt(c, l.seg));
    }
  }

  /** Freeing the block at `a` moves exactly its bytes from allocated to free. */
  lemma FreeAccounting(s: FreeList, a: nat, l: Loc)
    requires Valid(s) && ValidLoc(s.pages, l)
    requires At(s.pages, l).kind == Process && At(s.pages, l).offset == a
    ensures PagesBytes(Free(s, a).pages, Hole) == PagesBytes(s.pages, Hole) + At(s.pages, l).size
    ensures PagesBytes(Free(s, a).pages, Process) + At(s.pages, l).size == PagesBytes(s.pages, Process)
  {
    FreeReleasesBlock(s, a, l);
    var c := s.pages[l.page].chain;
    var p' := s.pages[l.page].(chain := ReleaseAt(c, l.seg));
    ReleaseKeepsPageChain(c, l.seg);
    PagesBytesUpdate(s.pages, l.page, p', Process);
    PagesBytesUpdate(s.pages, l.page, p', Hole);
  }

  /** mems_free removes exactly the block that starts at `a` from the
      allocated segments, and nothing when no block starts there. */
  lemma FreeAllocated(s: FreeList, a: nat)
    requires Valid(s)
    ensures Allocated(Free(s, a).pages) == set x | x in Allocated(s.pages) && x.offset != a
  {
    match Find(s.pages, BlockAt(a)) {
      case None =>
        forall x | x in Allocated(s.pages)
          ensures x.offset != a
        {
          AllocatedAt(s.pages, x);
        }
      case Some(l) =>
        var c := s.pages[l.page].chain;
        var y := c[l.seg];
        FreeReleasesBlock(s, a, l);
        ReleaseOwned(c, l.seg);
        forall j | 0 <= j < |s.pages| && j != l.page
          ensures y !in Owned(s.pages[j].chain)
        {
          if y in Owned(s.pages[j].chain) {
            var i :| 0 <= i < |s.pages[j].chain| && s.pages[j].chain[i] == y;
            OneBlockPerAddress(s, Loc(j, i), l);
          }
        }
        AllocatedShrinks(s.pages, l.page, ReleaseAt(c, l.seg), y);
        forall x | x in Allocated(s.pages) && x.offset == a
          ensures x == y
        {
          AllocatedAt(s.pages, x);
          var e :| ValidLoc(s.pages, e) && At(s.pages, e) == x && x.kind == Process;
          OneBlockPerAddress(s, e, l);
        }
    }
  }
}

=== FILE: pages.dfy ===
/** The outer level of the MeMS free list: the ordered chain of mapped pages
    (`Node` in the C code), the process-wide state (`FreeList`), the scan that
    mems_malloc, mems_free and mems_get all perform, and the sorted insertion
    of a new page. */
module Pages {
  import opened Wrappers
  import opened Segments

  /** Virtual address of the first page; mems_init starts the counter here. */
  const START_VA: nat := 1000

  /** One host mapping: the physical base it was mapped at and its segments. */
  datatype Node = Node(phys: nat, chain: seq<Segment>)

  /** The allocator's whole state: the pages in list order, and the virtual
      address the next new page will be given. */
  datatype FreeList = FreeList(pages: seq<Node>, nextVA: nat)

  /** Position of a segment: index of its page, then index in that page's chain. */
  datatype Loc = Loc(page: nat, seg: nat)

  /** Every page has a first segment, so its base can be read. */
  predicate ChainsNonEmpty(pages: seq<Node>)
  {
    forall k :: 0 <= k < |pages| ==> |pages[k].chain| > 0
  }

  /** Virtual base of a page: the offset of its first segment. */
  function Base(p: Node): nat
    requires |p.chain| > 0
  {
    p.chain[0].offset
  }

  /** Pages are listed in strictly ascending order of their bases. */
  ghost predicate StrictlyAscending(pages: seq<Node>)
  {
    && ChainsNonEmpty(pages)
    && forall k, l :: 0 <= k < l < |pages| ==> Base(pages[k]) < Base(pages[l])
  }

  /** The invariant of every reachable state: each page is tiled and fully
      coalesced, the pages' ranges are disjoint and in ascending order, and
      all of them lie below the counter. */
  ghost predicate Valid(s: FreeList)
  {
    && (forall k :: 0 <= k < |s.pages| ==> PageChain(s.pages[k].chain))
    && (forall k, l :: 0 <= k < l < |s.pages| ==> Base(s.pages[k]) + PAGE_SIZE <= Base(s.pages[l]))
    && (forall k :: 0 <= k < |s.pages| ==> Base(s.pages[k]) + PAGE_SIZE <= s.nextVA)
  }

  /** mems_init: no pages, counter at the starting virtual address. */
  function Init(): (s: FreeList)
    ensures Valid(s)
    ensures |s.pages| == 0 && s.nextVA == START_VA
  {
    FreeList([], START_VA)
  }

  lemma ValidChainsNonEmpty(s: FreeList)
    requires Valid(s)
    ensures ChainsNonEmpty(s.pages) && StrictlyAscending(s.pages)
  {
  }

  /** What a scan over the free list looks for. */
  datatype Probe =
    | FitsHole(size: nat)   // a HOLE of at least `size` bytes (mems_malloc)
    | BlockAt(addr: nat)    // the PROCESS segment starting at `addr` (mems_free)
    | Covers(addr: nat)     // the PROCESS segment containing `addr` (mems_get)

  predicate Matches(q: Probe, s: Segment)
  {
    match q
    case FitsHole(size) => s.kind == Hole && s.size >= size
    case BlockAt(a) => s.kind == Process && s.offset == a
    case Covers(v) => s.kind == Process && s.Contains(v)
  }

  predicate ValidLoc(pages: seq<Node>, l: Loc)
  {
    l.page < |pages| && l.seg < |pages[l.page].chain|
  }

  function At(pages: seq<Node>, l: Loc): Segment
    requires ValidLoc(pages, l)
  {
    pages[l.page].chain[l.seg]
  }

  /** Scan order: page order first, then chain order. */
  predicate Before(a: Loc, b: Loc)
  {
    a.page < b.page || (a.page == b.page && a.seg < b.seg)
  }

  /** The inner loop of each scan: the first index from `from` on whose
      segment matches. */
  function FindInChain(c: seq<Segment>, q: Probe, from: nat): (r: Option<nat>)
    requires from <= |c|
    ensures r.Some? ==> from <= r.value < |c| && Matches(q, c[r.value])
    ensures r.Some? ==> forall j :: from <= j < r.value ==> !Matches(q, c[j])
    ensures r.None? ==> forall j :: from <= j < |c| ==> !Matches(q, c[j])
    decreases |c| - from
  {
    if from == |c| then None
    else if Matches(q, c[from]) then Some(from)
    else FindInChain(c, q, from + 1)
  }

  /** The outer loop of each scan, from page `k` on. */
  function FindFrom(pages: seq<Node>, q: Probe, k: nat): (r: Option<Loc>)
    requires k <= |pages|
    ensures r.Some? ==> ValidLoc(pages, r.value) && k <= r.value.page && Matches(q, At(pages, r.value))
    ensures r.Some? ==> forall l :: ValidLoc(pages, l) && k <= l.page && Before(l, r.value) ==> !Matches(q, At(pages, l))
    ensures r.None? ==> forall l :: ValidLoc(pages, l) && k <= l.page ==> !Matches(q, At(pages, l))
    decreases |pages| - k
  {
    if k == |pages| then None
    else match FindInChain(pages[k].chain, q, 0)
      case Some(i) => Some(Loc(k, i))
      case None => FindFrom(pages, q, k + 1)
  }

  /** The first matching segment in scan order, or None when nothing matches. */
  function Find(pages: seq<Node>, q: Probe): (r: Option<Loc>)
    ensures r.Some? ==> ValidLoc(pages, r.value) && Matches(q, At(pages, r.value))
    ensures r.Some? ==> forall l :: ValidLoc(pages, l) && Before(l, r.value) ==> !Matches(q, At(pages, l))
    ensures r.None? <==> forall l :: ValidLoc(pages, l) ==> !Matches(q, At(pages, l))
  {
    FindFrom(pages, q, 0)
  }

  /** A match with no earlier match is exactly what the scan returns. */
  lemma FindReturnsFirstMatch(pages: seq<Node>, q: Probe, l: Loc)
    requires ValidLoc(pages, l) && Matches(q, At(pages, l))
    requires forall e :: ValidLoc(pages, e) && Before(e, l) ==> !Matches(q, At(pages, e))
    ensures Find(pages, q) == Some(l)
  {
  }

  /** The insertion walk of mems_malloc: starting at page `cur`, step to the
      next page while its base is below `va`; the new page goes after the
      page where the walk stops. */
  function WalkFrom(pages: seq<Node>, cur: nat, va: nat): (k: nat)
    requires ChainsNonEmpty(pages) && cur < |pages|
    ensures cur < k <= |pages|
    ensures forall j :: cur < j < k ==> Base(pages[j]) < va
    ensures k < |pages| ==> va <= Base(pages[k])
    decreases |pages| - cur
  {
    if cur + 1 < |pages| && Base(pages[cur + 1]) < va then WalkFrom(pages, cur + 1, va)
    else cur + 1
  }

  /** Where the new page lands: at the front when the list is empty or the
      head's base is above `va`, otherwise where the walk stops. */
  function InsertPos(pages: seq<Node>, va: nat): (k: nat)
    requires ChainsNonEmpty(pages)
    ensures k <= |pages|
    ensures forall j :: 0 <= j < k ==> Base(pages[j]) <= va
    ensures k < |pages| ==> va <= Base(pages[k])
    ensures k == 0 ==> |pages| == 0 || va < Base(pages[0])
    ensures forall j :: 0 < j < k ==> Base(pages[j]) < va
  {
    if |pages| == 0 || Base(pages[0]) > va then 0 else WalkFrom(pages, 0, va)
  }

  /** The page list with `n` spliced in where the sorted walk puts `va`:
      every page in front of it has a base not above `va`, and the page
      right after it, if any, has a base at or above `va`. */
  function InsertSorted(pages: seq<Node>, n: Node, va: nat): (r: seq<Node>)
    requires ChainsNonEmpty(pages)
    ensures |r| == |pages| + 1
    ensures r[InsertPos(pages, va)] == n
    ensures r[..InsertPos(pages, va)] == pages[..InsertPos(pages, va)]
    ensures r[InsertPos(pages, va) + 1..] == pages[InsertPos(pages, va)..]
  {
    var k := InsertPos(pages, va);
    pages[..k] + [n] + pages[k..]
  }

  /** Sorted insertion keeps the page list strictly ascending and leaves the
      other pages in their relative order. */
  lemma InsertSortedKeepsOrder(pages: seq<Node>, n: Node)
    requires StrictlyAscending(pages) && |n.chain| > 0
    requires forall k :: 0 <= k < |pages| ==> Base(pages[k]) != Base(n)
    ensures StrictlyAscending(InsertSorted(pages, n, Base(n)))
    ensures exists k :: 0 <= k <= |pages| && InsertSorted(pages, n, Base(n)) == pages[..k] + [n] + pages[k..]
  {
    var va := Base(n);
    var k := InsertPos(pages, va);
    var r := InsertSorted(pages, n, va);
    assert r == pages[..k] + [n] + pages[k..];
    forall j | 0 <= j < |r|
      ensures |r[j].chain| > 0
    {
      if j > k {
        assert r[j] == pages[j - 1];
      }
    }
    forall a, b | 0 <= a < b < |r|
      ensures Base(r[a]) < Base(r[b])
    {
      if b < k {
        assert r[a] == pages[a] && r[b] == pages[b];
      } else if b == k {
        assert r[a] == pages[a];
      } else if a < k {
        assert r[a] == pages[a] && r[b] == pages[b - 1];
      } else if a == k {
        assert r[b] == pages[b - 1];
        if b - 1 > k {
          assert Base(pages[k]) < Base(pages[b - 1]);
        }
      } else {
        assert r[a] == pages[a - 1] && r[b] == pages[b - 1];
      }
    }
  }

  /** When every base is below `va`, as the counter guarantees, the new page
      is appended. */
  lemma InsertSortedAppends(pages: seq<Node>, n: Node, va: nat)
    requires ChainsNonEmpty(pages)
    requires forall k :: 0 <= k < |pages| ==> Base(pages[k]) < va
    ensures InsertSorted(pages, n, va) == pages + [n]
  {
    assert pages[..|pages|] == pages;
  }

  /** Rewriting one page's chain into another tiled, coalesced chain with the
      same base keeps the state valid. */
  lemma ReplacePageKeepsValid(s: FreeList, k: nat, c: seq<Segment>)
    requires Valid(s) && k < |s.pages|
    requires PageChain(c) && c[0].offset == Base(s.pages[k])
    ensures Valid(s.(pages := s.pages[k := s.pages[k].(chain := c)]))
  {
    var pages' := s.pages[k := s.pages[k].(chain := c)];
    assert forall j :: 0 <= j < |pages'| ==> PageChain(pages'[j].chain) && Base(pages'[j]) == Base(s.pages[j]);
  }

  /** Appending a tiled, coalesced page at the counter and moving the counter
      past it keeps the state valid. */
  lemma AppendPageKeepsValid(s: FreeList, n: Node)
    requires Valid(s) && PageChain(n.chain) && Base(n) == s.nextVA
    ensures Valid(FreeList(s.pages + [n], s.nextVA + PAGE_SIZE))
  {
    var pages' := s.pages + [n];
    assert forall j :: 0 <= j < |s.pages| ==> pages'[j] == s.pages[j];
    assert pages'[|s.pages|] == n;
  }

  /** Every segment lies inside its own page's range. */
  lemma SegmentInsidePage(s: FreeList, l: Loc)
    requires Valid(s) && ValidLoc(s.pages, l)
    ensures Base(s.pages[l.page]) <= At(s.pages, l).offset
    ensures At(s.pages, l).offset + At(s.pages, l).size <= Base(s.pages[l.page]) + PAGE_SIZE
  {
    SegmentWithinPage(s.pages[l.page].chain, l.seg);
  }

  /** In a valid state two different positions, in the same page or not,
      hold non-overlapping runs of addresses. */
  lemma SegmentsApart(s: FreeList, l1: Loc, l2: Loc)
    requires Valid(s) && ValidLoc(s.pages, l1) && ValidLoc(s.pages, l2) && l1 != l2
    ensures Apart(At(s.pages, l1), At(s.pages, l2))
  {
    SegmentInsidePage(s, l1);
    SegmentInsidePage(s, l2);
    if l1.page == l2.page {
      SegmentsApartInChain(s.pages[l1.page].chain, l1.seg, l2.seg);
    } else if l1.page < l2.page {
      assert Base(s.pages[l1.page]) + PAGE_SIZE <= Base(s.pages[l2.page]);
    } else {
      assert Base(s.pages[l2.page]) + PAGE_SIZE <= Base(s.pages[l1.page]);
    }
  }

  /** Every segment of a valid state has a positive size. */
  lemma SegmentPositive(s: FreeList, l: Loc)
    requires Valid(s) && ValidLoc(s.pages, l)
    ensures At(s.pages, l).size > 0
  {
    assert PositiveSizes(s.pages[l.page].chain);
  }

  /** Every allocated (PROCESS) segment of the free list, over all pages. */
  function Allocated(pages: seq<Node>): set<Segment>
  {
    set k, x | 0 <= k < |pages| && x in Owned(pages[k].chain) :: x
  }

  /** A segment is allocated exactly when some position holds it as a
      PROCESS segment. */
  lemma AllocatedAt(pages: seq<Node>, x: Segment)
    ensures x in Allocated(pages) <==> exists l :: ValidLoc(pages, l) && At(pages, l) == x && x.kind == Process
  {
    if x in Allocated(pages) {
      var k :| 0 <= k < |pages| && x in Owned(pages[k].chain);
      var i :| 0 <= i < |pages[k].chain| && pages[k].chain[i] == x;
      assert ValidLoc(pages, Loc(k, i)) && At(pages, Loc(k, i)) == x;
    }
    if exists l :: ValidLoc(pages, l) && At(pages, l) == x && x.kind == Process {
      var l :| ValidLoc(pages, l) && At(pages, l) == x && x.kind == Process;
      assert x in Owned(pages[l.page].chain);
    }
  }

  /** A new page adds exactly its own allocated segments. */
  lemma AllocatedAppend(pages: seq<Node>, n: Node)
    ensures Allocated(pages + [n]) == Allocated(pages) + Owned(n.chain)
  {
    var r := pages + [n];
    forall x | x in Allocated(pages) + Owned(n.chain)
      ensures x in Allocated(r)
    {
      if x in Owned(n.chain) {
        assert r[|pages|] == n;
      } else {
        var k :| 0 <= k < |pages| && x in Owned(pages[k].chain);
        assert r[k] == pages[k];
      }
    }
    forall x | x in Allocated(r)
      ensures x in Allocated(pages) + Owned(n.chain)
    {
      var k :| 0 <= k < |r| && x in Owned(r[k].chain);
      if k < |pages| {
        assert r[k] == pages[k];
      }
    }
  }

  /** Rewriting page `k`'s chain so that it gains the segments `add` adds
      exactly those segments to the allocated set. */
  lemma AllocatedGrows(pages: seq<Node>, k: nat, c: seq<Segment>, add: set<Segment>)
    requires k < |pages| && Owned(c) == Owned(pages[k].chain) + add
    ensures Allocated(pages[k := pages[k].(chain := c)]) == Allocated(pages) + add
  {
    var r := pages[k := pages[k].(chain := c)];
    forall x | x in Allocated(pages) + add
      ensures x in Allocated(r)
    {
      if x in add {
        assert x in Owned(r[k].chain);
      } else {
        var j :| 0 <= j < |pages| && x in Owned(pages[j].chain);
        assert x in Owned(r[j].chain);
      }
    }
    forall x | x in Allocated(r)
      ensures x in Allocated(pages) + add
    {
      var j :| 0 <= j < |r| && x in Owned(r[j].chain);
      if j != k {
        assert x in Owned(pages[j].chain);
      }
    }
  }

  /** Rewriting page `k`'s chain so that it loses `y`, which no other page
      holds, removes exactly `y` from the allocated set. */
  lemma AllocatedShrinks(pages: seq<Node>, k: nat, c: seq<Segment>, y: Segment)
    requires k < |pages| && Owned(c) == Owned(pages[k].chain) - {y}
    requires forall j :: 0 <= j < |pages| && j != k ==> y !in Owned(pages[j].chain)
    ensures Allocated(pages[k := pages[k].(chain := c)]) == Allocated(pages) - {y}
  {
    var r := pages[k := pages[k].(chain := c)];
    forall x | x in Allocated(pages) - {y}
      ensures x in Allocated(r)
    {
      var j :| 0 <= j < |pages| && x in Owned(pages[j].chain);
      assert x in Owned(r[j].chain);
    }
    forall x | x in Allocated(r)
      ensures x in Allocated(pages) - {y}
    {
      var j :| 0 <= j < |r| && x in Owned(r[j].chain);
      assert x in Owned(pages[j].chain);
    }
  }

  /** In a valid state no two positions hold PROCESS segments that start at
      the same address. */
  lemma OneBlockPerAddress(s: FreeList, l1: Loc, l2: Loc)
    requires Valid(s) && ValidLoc(s.pages, l1) && ValidLoc(s.pages, l2)
    requires At(s.pages, l1).offset == At(s.pages, l2).offset
    ensures l1 == l2
  {
    if l1 != l2 {
      SegmentsApart(s, l1, l2);
      SegmentPositive(s, l1);
      SegmentPositive(s, l2);
    }
  }

  /** Bytes of one kind over all pages (the HOLE total is what mems_print_stats
      reports as unused space). */
  function PagesBytes(pages: seq<Node>, kind: SegmentType): nat
  {
    if |pages| == 0 then 0
    else PagesBytes(pages[..|pages| - 1], kind) + Bytes(pages[|pages| - 1].chain, kind)
  }

  lemma {:induction false} PagesBytesAppend(pages: seq<Node>, n: Node, kind: SegmentType)
    ensures PagesBytes(pages + [n], kind) == PagesBytes(pages, kind) + Bytes(n.chain, kind)
  {
    assert (pages + [n])[..|pages|] == pages;
  }

  /** Replacing one page changes the total by the difference of that page's bytes. */
  lemma {:induction false} PagesBytesUpdate(pages: seq<Node>, k: nat, p: Node, kind: SegmentType)
    requires k < |pages|
    ensures PagesBytes(pages[k := p], kind) + Bytes(pages[k].chain, kind)
         == PagesBytes(pages, kind) + Bytes(p.chain, kind)
    decreases |pages|
  {
    var last := |pages| - 1;
    if k < last {
      assert pages[k := p][..last] == pages[..last][k := p];
      PagesBytesUpdate(pages[..last], k, p, kind);
    } else {
      assert pages[k := p][..last] == pages[..last];
    }
  }
}

=== FILE: scenarios.dfy ===
/** Concrete runs of the allocator from mems_init, with a 4096-byte page and
    the counter starting at 1000. Physical bases are parameters: mmap may
    answer anything. */
module Scenarios {
  import opened Wrappers
  import opened Segments
  import opened Pages
  import opened Alloc
  import opened Dealloc
  import opened Translate

  /** The state after the first request of `size` bytes on a fresh space. */
  lemma FirstAllocation(size: nat, p: nat)
    requires 0 < size < PAGE_SIZE
    ensures Malloc(Init(), size, Mapped(p)) == Outcome(Some(1000), FreeList(
      [Node(p, [Segment(Process, size, 1000), Segment(Hole, PAGE_SIZE - size, 1000 + size)])], 5096))
  {
    MallocNewPage(Init(), size, p);
    assert [] + [Node(p, [Segment(Process, size, 1000), Segment(Hole, PAGE_SIZE - size, 1000 + size)])]
      == [Node(p, [Segment(Process, size, 1000), Segment(Hole, PAGE_SIZE - size, 1000 + size)])];
  }

  /** `a = mems_malloc(100)` on a fresh space returns 1000, and mems_get(a)
      is the new page's physical base. */
  lemma ScenarioFirstAddress(p: nat)
    ensures Malloc(Init(), 100, Mapped(p)).addr == Some(1000)
    ensures Get(Malloc(Init(), 100, Mapped(p)).after, 1000) == Some(p)
  {
    FirstAllocation(100, p);
    var t := FreeList([Node(p, [Segment(Process, 100, 1000), Segment(Hole, 3996, 1100)])], 5096);
    GetThroughFirst(t, p);
  }

  /** On a page holding 100 allocated bytes at 1000, address 1000
      translates to the page's physical base. */
  lemma GetThroughFirst(t: FreeList, p: nat)
    requires t == FreeList([Node(p, [Segment(Process, 100, 1000), Segment(Hole, 3996, 1100)])], 5096)
    ensures Get(t, 1000) == Some(p)
  {
    FindReturnsFirstMatch(t.pages, Covers(1000), Loc(0, 0));
  }

  /** `mems_malloc(100)` then `mems_malloc(4000)`: the 3996-byte HOLE is too
      small, so a second page is mapped at 1000 + 4096 = 5096 and appended. */
  lemma ScenarioSecondPage(p: nat, q: nat)
    ensures var s1 := Malloc(Init(), 100, Mapped(p)).after;
      && Malloc(s1, 4000, Mapped(q)).addr == Some(5096)
      && Malloc(s1, 4000, Mapped(q)).after.pages == s1.pages + [Node(q, [Segment(Process, 4000, 5096), Segment(Hole, 96, 9096)])]
  {
    FirstAllocation(100, p);
    var s1 := FreeList([Node(p, [Segment(Process, 100, 1000), Segment(Hole, 3996, 1100)])], 5096);
    NoHoleFits(s1, 4000);
    MallocNewPage(s1, 4000, q);
  }

  /** The one page of `s1` has no HOLE of `size` bytes. */
  lemma NoHoleFits(s1: FreeList, size: nat)
    requires |s1.pages| == 1 && s1.pages[0].chain == [Segment(Process, 100, 1000), Segment(Hole, 3996, 1100)]
    requires size > 3996
    ensures forall l :: ValidLoc(s1.pages, l) ==> !(At(s1.pages, l).kind == Hole && At(s1.pages, l).size >= size)
  {
  }

  /** `a = mems_malloc(100)`, `mems_free(a)`, `b = mems_malloc(50)`: the page
      is one HOLE after the free, `b == a`, and the rest of the page stays one
      HOLE of 4046 bytes right behind `b`. */
  lemma ScenarioReuse(p: nat, host: HostMap)
    ensures var s1 := Malloc(Init(), 100, Mapped(p)).after;
      var s2 := Free(s1, 1000);
      && s2 == FreeList([Node(p, [Segment(Hole, 4096, 1000)])], 5096)
      && Malloc(s2, 50, host) == Outcome(Some(1000),
           FreeList([Node(p, [Segment(Process, 50, 1000), Segment(Hole, 4046, 1050)])], 5096))
  {
    FirstAllocation(100, p);
    var s1 := FreeList([Node(p, [Segment(Process, 100, 1000), Segment(Hole, 3996, 1100)])], 5096);
    FreeOnlyBlock(s1, p);
    var s2 := FreeList([Node(p, [Segment(Hole, 4096, 1000)])], 5096);
    MallocReusesFirstFit(s2, 50, host, Loc(0, 0));
    PlaceInWholePage(1000, 50);
  }

  /** `a = mems_malloc(100)`, `b = mems_malloc(200)`: `b` is 1100, on the
      same page as `a`. The as-written mems_get maps both `a` and `b` to the
      page's physical base; the corrected one maps `b` 100 bytes further on. */
  lemma ScenarioSharedPage(p: nat, host: HostMap)
    ensures var s1 := Malloc(Init(), 100, Mapped(p)).after;
      var o2 := Malloc(s1, 200, host);
      && o2.addr == Some(1100)
      && GetAsWritten(o2.after, 1000) == Some(p)
      && GetAsWritten(o2.after, 1100) == Some(p)
      && Get(o2.after, 1000) == Some(p)
      && Get(o2.after, 1100) == Some(p + 100)
  {
    FirstAllocation(100, p);
    var s1 := FreeList([Node(p, [Segment(Process, 100, 1000), Segment(Hole, 3996, 1100)])], 5096);
    SecondBlockOnPage(s1, p, host);
    var t := FreeList([Node(p, [Segment(Process, 100, 1000), Segment(Process, 200, 1100), Segment(Hole, 3796, 1300)])], 5096);
    TwoBlocksTranslate(t, p);
  }

  /** A 200-byte request after a 100-byte one takes the front of the HOLE
      behind it. */
  lemma SecondBlockOnPage(s1: FreeList, p: nat, host: HostMap)
    requires s1 == FreeList([Node(p, [Segment(Process, 100, 1000), Segment(Hole, 3996, 1100)])], 5096)
    ensures Malloc(s1, 200, host) == Outcome(Some(1100),
      FreeList([Node(p, [Segment(Process, 100, 1000), Segment(Process, 200, 1100), Segment(Hole, 3796, 1300)])], 5096))
  {
    MallocReusesFirstFit(s1, 200, host, Loc(0, 1));
    var c1 := s1.pages[0].chain;
    assert Place(c1, 1, 200) == [Segment(Process, 100, 1000), Segment(Process, 200, 1100), Segment(Hole, 3796, 1300)];
  }

  /** On a page holding blocks at 1000 and 1100, both translate to the page's
      physical base as written, and 100 bytes apart once corrected. */
  lemma TwoBlocksTranslate(t: FreeList, p: nat)
    requires t == FreeList([Node(p, [Segment(Process, 100, 1000), Segment(Process, 200, 1100), Segment(Hole, 3796, 1300)])], 5096)
    ensures GetAsWritten(t, 1000) == Some(p) && GetAsWritten(t, 1100) == Some(p)
    ensures Get(t, 1000) == Some(p) && Get(t, 1100) == Some(p + 100)
  {
    FindReturnsFirstMatch(t.pages, Covers(1000), Loc(0, 0));
    FindReturnsFirstMatch(t.pages, Covers(1100), Loc(0, 1));
    assert t.pages[0].chain[..1] == [Segment(Process, 100, 1000)];
    BytesSingleton(Segment(Process, 100, 1000), Process);
    BytesSingleton(Segment(Process, 100, 1000), Hole);
  }

  /** Freeing the only block of a page merges it with the HOLE behind it. */
  lemma FreeOnlyBlock(s1: FreeList, p: nat)
    requires s1 == FreeList([Node(p, [Segment(Process, 100, 1000), Segment(Hole, 3996, 1100)])], 5096)
    ensures Free(s1, 1000) == FreeList([Node(p, [Segment(Hole, 4096, 1000)])], 5096)
  {
    FindReturnsFirstMatch(s1.pages, BlockAt(1000), Loc(0, 0));
    var c := s1.pages[0].chain;
    var c1 := c[0 := c[0].(kind := Hole)];
    assert ReleaseAt(c, 0) == AbsorbNext(c1, 0);
    assert AbsorbNext(c1, 0) == [Segment(Hole, 4096, 1000)];
  }

  /** Placing `size` bytes in a whole-page HOLE splits it in two. */
  lemma PlaceInWholePage(va: nat, size: nat)
    requires 0 < size < PAGE_SIZE
    ensures Place([Segment(Hole, PAGE_SIZE, va)], 0, size)
      == [Segment(Process, size, va), Segment(Hole, PAGE_SIZE - size, va + size)]
  {
  }

  /** `a = mems_malloc(200)`, `b = mems_malloc(300)`, `mems_free(a)`,
      `mems_free(b)`: `b` lands right behind `a` in the same page, and after
      both frees the page is one HOLE spanning all of it. */
  lemma ScenarioCollapse(p: nat, host: HostMap)
    ensures var s1 := Malloc(Init(), 200, Mapped(p)).after;
      var o2 := Malloc(s1, 300, host);
      && o2.addr == Some(1200)
      && Free(Free(o2.after, 1000), 1200) == FreeList([Node(p, [Segment(Hole, 4096, 1000)])], 5096)
  {
    FirstAllocation(200, p);
    var s1 := FreeList([Node(p, [Segment(Process, 200, 1000), Segment(Hole, 3896, 1200)])], 5096);
    MallocReusesFirstFit(s1, 300, host, Loc(0, 1));
    var c1 := [Segment(Process, 200, 1000), Segment(Hole, 3896, 1200)];
    assert Place(c1, 1, 300) == [Segment(Process, 200, 1000), Segment(Process, 300, 1200), Segment(Hole, 3596, 1500)];
    var s2 := FreeList([Node(p, [Segment(Process, 200, 1000), Segment(Process, 300, 1200), Segment(Hole, 3596, 1500)])], 5096);
    FreeFirstOfTwo(s2, p);
    var s3 := FreeList([Node(p, [Segment(Hole, 200, 1000), Segment(Process, 300, 1200), Segment(Hole, 3596, 1500)])], 5096);
    FreeBetweenHoles(s3, p);
  }

  /** Freeing the first of two blocks: its successor is not a HOLE, so it is
      only retagged. */
  lemma FreeFirstOfTwo(s2: FreeList, p: nat)
    requires s2 == FreeList([Node(p, [Segment(Process, 200, 1000), Segment(Process, 300, 1200), Segment(Hole, 3596, 1500)])], 5096)
    ensures Free(s2, 1000) == FreeList([Node(p, [Segment(Hole, 200, 1000), Segment(Process, 300, 1200), Segment(Hole, 3596, 1500)])], 5096)
  {
    FindReturnsFirstMatch(s2.pages, BlockAt(1000), Loc(0, 0));
    var c := s2.pages[0].chain;
    assert ReleaseAt(c, 0) == c[0 := c[0].(kind := Hole)];
    assert c[0 := c[0].(kind := Hole)] == [Segment(Hole, 200, 1000), Segment(Process, 300, 1200), Segment(Hole, 3596, 1500)];
  }

  /** Freeing a block between two HOLEs merges all three. */
  lemma FreeBetweenHoles(s3: FreeList, p: nat)
    requires s3 == FreeList([Node(p, [Segment(Hole, 200, 1000), Segment(Process, 300, 1200), Segment(Hole, 3596, 1500)])], 5096)
    ensures Free(s3, 1200) == FreeList([Node(p, [Segment(Hole, 4096, 1000)])], 5096)
  {
    FindReturnsFirstMatch(s3.pages, BlockAt(1200), Loc(0, 1));
    var c := s3.pages[0].chain;
    var c1 := c[1 := c[1].(kind := Hole)];
    var c2 := AbsorbNext(c1, 0);
    assert c2 == [Segment(Hole, 500, 1000), Segment(Hole, 3596, 1500)];
    assert AbsorbNext(c2, 0) == [Segment(Hole, 4096, 1000)];
  }

  /** `mems_malloc(4096)` on a fresh space takes the whole page: no HOLE is
      left behind it. */
  lemma ScenarioWholePage(p: nat)
    ensures Malloc(Init(), 4096, Mapped(p)) == Outcome(Some(1000), FreeList([Node(p, [Segment(Process, 4096, 1000)])], 5096))
  {
    MallocNewPage(Init(), 4096, p);
    assert [] + [Node(p, [Segment(Process, 4096, 1000)])] == [Node(p, [Segment(Process, 4096, 1000)])];
  }
}

=== FILE: segments.dfy ===
/** The inner level of the MeMS free list: the chain of segments that tiles
    one page. In the C code this is the doubly linked `sub_chain` of a `Node`;
    here it is a sequence, so `prev`/`next` become index `i - 1`/`i + 1`. */
module Segments {

  /** Length of every page the allocator maps from the host, in bytes. */
  const PAGE_SIZE: nat := 4096

  /** PROCESS marks a run handed out to a caller, HOLE a free run. */
  datatype SegmentType = Process | Hole

  /** The run of virtual addresses [offset, offset + size) inside one page.
      `offset` is also the handle mems_malloc gives to its caller. */
  datatype Segment = Segment(kind: SegmentType, size: nat, offset: nat)
  {
    predicate Contains(v: nat) {
      offset <= v < offset + size
    }
  }

  /** Sum of the sizes of the segments of `c` that have the given kind. */
  function Bytes(c: seq<Segment>, kind: SegmentType): nat
  {
    if |c| == 0 then 0
    else Bytes(c[..|c| - 1], kind) + (if c[|c| - 1].kind == kind then c[|c| - 1].size else 0)
  }

  /** Number of bytes a chain covers. */
  function Sum(c: seq<Segment>): nat
  {
    Bytes(c, Process) + Bytes(c, Hole)
  }

  /** Every segment ends exactly where the next one starts. */
  ghost predicate Contiguous(c: seq<Segment>)
  {
    forall i, j :: 0 <= i < j < |c| && j == i + 1 ==> c[i].offset + c[i].size == c[j].offset
  }

  predicate PositiveSizes(c: seq<Segment>)
  {
    forall i :: 0 <= i < |c| ==> c[i].size > 0
  }

  /** The chain exactly tiles one page whose base is its first offset. */
  ghost predicate Tiles(c: seq<Segment>)
  {
    |c| > 0 && Contiguous(c) && PositiveSizes(c) && Sum(c) == PAGE_SIZE
  }

  /** Coalescing has been run to completion: no HOLE follows a HOLE. */
  ghost predicate NoAdjacentHoles(c: seq<Segment>)
  {
    forall i, j :: 0 <= i < j < |c| && j == i + 1 ==> !(c[i].kind == Hole && c[j].kind == Hole)
  }

  /** The per-page invariant the operations maintain. */
  ghost predicate PageChain(c: seq<Segment>)
  {
    Tiles(c) && NoAdjacentHoles(c)
  }

  /** The allocated segments of a chain. */
  function Owned(c: seq<Segment>): set<Segment>
  {
    set s | s in c && s.kind == Process
  }

  /** `c` with the `n` segments starting at index `i` replaced by `mid`: the
      pointer surgery of a split or a merge, as a sequence operation. */
  function Splice(c: seq<Segment>, i: nat, n: nat, mid: seq<Segment>): (r: seq<Segment>)
    requires i + n <= |c|
    ensures |r| == |c| - n + |mid|
  {
    c[..i] + mid + c[i + n..]
  }

  lemma {:induction false} BytesConcat(a: seq<Segment>, b: seq<Segment>, kind: SegmentType)
    ensures Bytes(a + b, kind) == Bytes(a, kind) + Bytes(b, kind)
    decreases |b|
  {
    if |b| == 0 {
      assert a + b == a;
    } else {
      var b' := b[..|b| - 1];
      assert (a + b)[..|a + b| - 1] == a + b';
      BytesConcat(a, b', kind);
    }
  }

  lemma BytesSingleton(x: Segment, kind: SegmentType)
    ensures Bytes([x], kind) == if x.kind == kind then x.size else 0
  {
    assert [x][..0] == [];
  }

  lemma BytesPair(x: Segment, y: Segment, kind: SegmentType)
    ensures Bytes([x, y], kind) == Bytes([x], kind) + Bytes([y], kind)
  {
    assert [x, y] == [x] + [y];
    BytesConcat([x], [y], kind);
  }

  /** A slice of a fully coalesced chain is fully coalesced. */
  lemma NoAdjacentHolesSlice(c: seq<Segment>, a: nat, b: nat)
    requires NoAdjacentHoles(c) && a <= b <= |c|
    ensures NoAdjacentHoles(c[a..b])
  {
    var d := c[a..b];
    forall k, l | 0 <= k < l < |d| && l == k + 1
      ensures !(d[k].kind == Hole && d[l].kind == Hole)
    {
      assert d[k] == c[a + k] && d[l] == c[a + l];
    }
  }

  lemma SumConcat(a: seq<Segment>, b: seq<Segment>)
    ensures Sum(a + b) == Sum(a) + Sum(b)
  {
    BytesConcat(a, b, Process);
    BytesConcat(a, b, Hole);
  }

  /** A splice changes the byte count of each kind by what it swaps. */
  lemma BytesSplice(c: seq<Segment>, i: nat, n: nat, mid: seq<Segment>, kind: SegmentType)
    requires i + n <= |c|
    ensures Bytes(Splice(c, i, n, mid), kind) + Bytes(c[i..i + n], kind)
         == Bytes(c, kind) + Bytes(mid, kind)
  {
    assert c == c[..i] + c[i..i + n] + c[i + n..];
    BytesConcat(c[..i], c[i..i + n], kind);
    BytesConcat(c[..i] + c[i..i + n], c[i + n..], kind);
    BytesConcat(c[..i], mid, kind);
    BytesConcat(c[..i] + mid, c[i + n..], kind);
  }

  /** In a contiguous chain, a segment starts where the ones before it end. */
  lemma {:induction false} OffsetIsPrefixSum(c: seq<Segment>, i: nat)
    requires Contiguous(c) && i < |c|
    ensures c[i].offset == c[0].offset + Sum(c[..i])
  {
    if i > 0 {
      OffsetIsPrefixSum(c, i - 1);
      assert c[..i][..i - 1] == c[..i - 1];
      assert c[i - 1].offset + c[i - 1].size == c[i].offset;
    }
  }

  /** The last segment of a contiguous chain ends `Sum(c)` bytes after its first offset. */
  lemma ChainEnd(c: seq<Segment>)
    requires Contiguous(c) && |c| > 0
    ensures c[|c| - 1].offset + c[|c| - 1].size == c[0].offset + Sum(c)
  {
    OffsetIsPrefixSum(c, |c| - 1);
  }

  /** Segments of a contiguous chain are in address order and do not overlap. */
  lemma {:induction false} SegmentsOrdered(c: seq<Segment>, i: nat, j: nat)
    requires Contiguous(c) && i < j < |c|
    ensures c[i].offset + c[i].size <= c[j].offset
    decreases j - i
  {
    if j > i + 1 {
      SegmentsOrdered(c, i, j - 1);
    }
    assert c[j - 1].offset + c[j - 1].size == c[j].offset;
  }

  /** Every segment of a tiling chain lies inside the page [base, base + PAGE_SIZE). */
  lemma SegmentWithinPage(c: seq<Segment>, i: nat)
    requires Tiles(c) && i < |c|
    ensures c[0].offset <= c[i].offset
    ensures c[i].offset + c[i].size <= c[0].offset + PAGE_SIZE
  {
    OffsetIsPrefixSum(c, i);
    ChainEnd(c);
    if i < |c| - 1 {
      SegmentsOrdered(c, i, |c| - 1);
    }
  }

  /** In a tiling chain, distinct positions hold distinct segments. */
  lemma SegmentsDistinct(c: seq<Segment>, i: nat, j: nat)
    requires Tiles(c) && i < |c| && j < |c| && i != j
    ensures c[i] != c[j]
  {
    if i < j {
      SegmentsOrdered(c, i, j);
    } else {
      SegmentsOrdered(c, j, i);
    }
  }

  /** Two runs of addresses that do not overlap. */
  predicate Apart(x: Segment, y: Segment)
  {
    x.offset + x.size <= y.offset || y.offset + y.size <= x.offset
  }

  /** Different positions of a contiguous chain hold non-overlapping runs. */
  lemma SegmentsApartInChain(c: seq<Segment>, i: nat, j: nat)
    requires Contiguous(c) && i < |c| && j < |c| && i != j
    ensures Apart(c[i], c[j])
  {
    if i < j {
      SegmentsOrdered(c, i, j);
    } else {
      SegmentsOrdered(c, j, i);
    }
  }

  /** A segment of a given kind contributes its whole size to that kind's total. */
  lemma {:induction false} BytesCountsMember(c: seq<Segment>, t: nat)
    requires t < |c|
    ensures Bytes(c, c[t].kind) >= c[t].size
    decreases |c|
  {
    if t < |c| - 1 {
      assert c[..|c| - 1][t] == c[t];
      BytesCountsMember(c[..|c| - 1], t);
    }
  }

  /** When `c[t]` is the only PROCESS segment of `c`, the PROCESS total is its size. */
  lemma {:induction false} BytesOfLoneProcess(c: seq<Segment>, t: nat)
    requires t < |c| && c[t].kind == Process
    requires forall j :: 0 <= j < |c| && j != t ==> c[j].kind == Hole
    ensures Bytes(c, Process) == c[t].size
    decreases |c|
  {
    var init := c[..|c| - 1];
    if t < |c| - 1 {
      assert init[t] == c[t];
      BytesOfLoneProcess(init, t);
    } else {
      BytesNoneOfKind(init, Process);
    }
  }

  lemma {:induction false} BytesNoneOfKind(c: seq<Segment>, kind: SegmentType)
    requires forall j :: 0 <= j < |c| ==> c[j].kind != kind
    ensures Bytes(c, kind) == 0
    decreases |c|
  {
    if |c| > 0 {
      BytesNoneOfKind(c[..|c| - 1], kind);
    }
  }

  /** At most one segment of a contiguous chain contains a given address. */
  lemma ContainerUniqueInChain(c: seq<Segment>, i: nat, j: nat, v: nat)
    requires Contiguous(c) && i < |c| && j < |c|
    requires c[i].Contains(v) && c[j].Contains(v)
    ensures i == j
  {
    if i < j {
      SegmentsOrdered(c, i, j);
    } else if j < i {
      SegmentsOrdered(c, j, i);
    }
  }

  /** In a contiguous chain, the segment after a window starts where the
      window's bytes end. */
  lemma WindowEnd(c: seq<Segment>, i: nat, n: nat)
    requires Contiguous(c) && i + n < |c|
    ensures c[i + n].offset == c[i].offset + Sum(c[i..i + n])
  {
    var d := c[i..i + n + 1];
    forall k, l | 0 <= k < l < |d| && l == k + 1
      ensures d[k].offset + d[k].size == d[l].offset
    {
      assert d[k] == c[i + k] && d[l] == c[i + l];
    }
    OffsetIsPrefixSum(d, n);
    assert d[..n] == c[i..i + n];
  }

  /** A splice is contiguous when both parts are and the two seams match. */
  lemma SpliceContiguous(c: seq<Segment>, i: nat, n: nat, mid: seq<Segment>)
    requires Contiguous(c) && Contiguous(mid) && |mid| > 0 && i + n <= |c|
    requires i > 0 ==> c[i - 1].offset + c[i - 1].size == mid[0].offset
    requires i + n < |c| ==> mid[|mid| - 1].offset + mid[|mid| - 1].size == c[i + n].offset
    ensures Contiguous(Splice(c, i, n, mid))
  {
    var r := Splice(c, i, n, mid);
    forall k, l | 0 <= k < l < |r| && l == k + 1
      ensures r[k].offset + r[k].size == r[l].offset
    {
      if l < i {
        assert r[k] == c[k] && r[l] == c[l];
      } else if l == i {
        assert r[k] == c[i - 1] && r[l] == mid[0];
      } else if l < i + |mid| {
        assert r[k] == mid[k - i] && r[l] == mid[l - i];
      } else if l == i + |mid| {
        assert r[k] == mid[|mid| - 1] && r[l] == c[i + n];
      } else {
        assert r[k] == c[k - |mid| + n] && r[l] == c[l - |mid| + n];
      }
    }
  }

  lemma SplicePositive(c: seq<Segment>, i: nat, n: nat, mid: seq<Segment>)
    requires PositiveSizes(c) && PositiveSizes(mid) && i + n <= |c|
    ensures PositiveSizes(Splice(c, i, n, mid))
  {
    var r := Splice(c, i, n, mid);
    forall k | 0 <= k < |r|
      ensures r[k].size > 0
    {
      if k < i {
        assert r[k] == c[k];
      } else if k < i + |mid| {
        assert r[k] == mid[k - i];
      } else {
        assert r[k] == c[k - |mid| + n];
      }
    }
  }

  /** Replacing a window of a tiling chain by a contiguous run of positive
      segments that starts at the same offset and covers the same number of
      bytes yields a tiling chain with the same base. */
  lemma SpliceKeepsTiling(c: seq<Segment>, i: nat, n: nat, mid: seq<Segment>)
    requires Tiles(c) && 0 < n && i + n <= |c|
    requires |mid| > 0 && Contiguous(mid) && PositiveSizes(mid)
    requires mid[0].offset == c[i].offset && Sum(mid) == Sum(c[i..i + n])
    ensures Tiles(Splice(c, i, n, mid))
    ensures Splice(c, i, n, mid)[0].offset == c[0].offset
  {
    BytesSplice(c, i, n, mid, Process);
    BytesSplice(c, i, n, mid, Hole);
    ChainEnd(mid);
    if i + n < |c| {
      WindowEnd(c, i, n);
    }
    if i > 0 {
      assert c[i - 1].offset + c[i - 1].size == c[i].offset;
    }
    SpliceContiguous(c, i, n, mid);
    SplicePositive(c, i, n, mid);
  }

  /** No-adjacent-holes splits at any cut: it holds of a concatenation exactly
      when it holds of both halves and the seam is not HOLE next to HOLE. */
  lemma NoAdjacentHolesConcat(a: seq<Segment>, b: seq<Segment>)
    ensures NoAdjacentHoles(a + b) <==>
      && NoAdjacentHoles(a) && NoAdjacentHoles(b)
      && !(|a| > 0 && |b| > 0 && a[|a| - 1].kind == Hole && b[0].kind == Hole)
  {
    var r := a + b;
    if NoAdjacentHoles(a) && NoAdjacentHoles(b)
      && !(|a| > 0 && |b| > 0 && a[|a| - 1].kind == Hole && b[0].kind == Hole)
    {
      forall k, l | 0 <= k < l < |r| && l == k + 1
        ensures !(r[k].kind == Hole && r[l].kind == Hole)
      {
        if l < |a| {
          assert r[k] == a[k] && r[l] == a[l];
        } else if l == |a| {
          assert r[k] == a[|a| - 1] && r[l] == b[0];
        } else {
          assert r[k] == b[k - |a|] && r[l] == b[l - |a|];
        }
      }
    }
    if NoAdjacentHoles(r) {
      forall k, l | 0 <= k < l < |a| && l == k + 1
        ensures !(a[k].kind == Hole && a[l].kind == Hole)
      {
        assert a[k] == r[k] && a[l] == r[l];
      }
      forall k, l | 0 <= k < l < |b| && l == k + 1
        ensures !(b[k].kind == Hole && b[l].kind == Hole)
      {
        assert b[k] == r[k + |a|] && b[l] == r[l + |a|];
      }
      if |a| > 0 && |b| > 0 {
        assert r[|a| - 1] == a[|a| - 1] && r[|a|] == b[0];
      }
    }
  }
}

=== FILE: session.dfy ===
/** A client session: a sequence of mems_malloc and mems_free calls run from
    mems_init, one call at a time. */
module Session {
  import opened Wrappers
  import opened Segments
  import opened Pages
  import opened Alloc
  import opened Dealloc

  /** One call a client makes; `host` is what mmap answers if it is asked. */
  datatype Call =
    | MallocCall(size: nat, host: HostMap)
    | FreeCall(addr: nat)

  /** The allocated segments after one call, as a client keeps the books: a
      malloc that returns an address adds the block it returned, a free drops
      the block starting at its address, and nothing else changes them. */
  function Book(live: set<Segment>, call: Call, addr: Option<nat>): set<Segment>
  {
    match call
    case MallocCall(size, _) => if addr.Some? then live + {Segment(Process, size, addr.value)} else live
    case FreeCall(a) => set x | x in live && x.offset != a
  }

  /** One call on a valid state. mems_free returns nothing, modelled as None. */
  function Step(s: FreeList, call: Call): (r: Outcome)
    requires Valid(s)
    ensures Valid(r.after)
    ensures Allocated(r.after.pages) == Book(Allocated(s.pages), call, r.addr)
    ensures r.after.nextVA == s.nextVA || r.after.nextVA == s.nextVA + PAGE_SIZE
    ensures || |r.after.pages| == |s.pages|
            || (|r.after.pages| == |s.pages| + 1 && r.after.nextVA == s.nextVA + PAGE_SIZE)
    ensures call.FreeCall? ==> r.addr.None? && r.after.nextVA == s.nextVA
  {
    match call
    case MallocCall(size, host) =>
      MallocPreservesValid(s, size, host);
      MallocAddsAtMostOnePage(s, size, host);
      MallocAllocated(s, size, host);
      Malloc(s, size, host)
    case FreeCall(a) =>
      FreePreservesValid(s, a);
      FreeAllocated(s, a);
      Outcome(None, Free(s, a))
  }

  /** A whole session from `s`: every state stays valid, the counter only
      moves forward, pages are never given back, and each page added has
      used up one page of the counter. */
  function Run(s: FreeList, calls: seq<Call>): (r: FreeList)
    requires Valid(s)
    ensures Valid(r)
    ensures s.nextVA <= r.nextVA
    ensures |s.pages| <= |r.pages|
    ensures (|r.pages| - |s.pages|) * PAGE_SIZE <= r.nextVA - s.nextVA
    decreases |calls|
  {
    if |calls| == 0 then s else Run(Step(s, calls[0]).after, calls[1..])
  }

  /** Every state a client can reach from mems_init is valid, and the counter
      lies at least one page per mapped page above the starting address. */
  lemma ReachableValid(calls: seq<Call>)
    ensures Valid(Run(Init(), calls))
    ensures START_VA + |Run(Init(), calls).pages| * PAGE_SIZE <= Run(Init(), calls).nextVA
  {
  }

  /** What each call of a session returns, in order. */
  function Returns(s: FreeList, calls: seq<Call>): (r: seq<Option<nat>>)
    requires Valid(s)
    ensures |r| == |calls|
    decreases |calls|
  {
    if |calls| == 0 then [] else [Step(s, calls[0]).addr] + Returns(Step(s, calls[0]).after, calls[1..])
  }

  /** No call from position `from` on frees the block at `a`. */
  predicate NotFreedFrom(calls: seq<Call>, from: nat, a: nat)
  {
    forall j :: from <= j < |calls| ==> calls[j] != FreeCall(a)
  }

  /** Call `i` was a malloc of `x`'s size that returned `x`'s address. */
  predicate ReturnedAt(calls: seq<Call>, rets: seq<Option<nat>>, i: nat, x: Segment)
  {
    && i < |calls| && i < |rets|
    && calls[i].MallocCall? && calls[i].size == x.size
    && x.kind == Process && rets[i] == Some(x.offset)
  }

  /** `x` is a block some malloc of the session returned and no later free
      gave back. */
  ghost predicate HandedOut(calls: seq<Call>, rets: seq<Option<nat>>, x: Segment)
  {
    exists i: nat :: ReturnedAt(calls, rets, i, x) && NotFreedFrom(calls, i + 1, x.offset)
  }

  /** Dropping the first call shifts every position by one. */
  lemma HandedOutShift(calls: seq<Call>, rets: seq<Option<nat>>, x: Segment)
    requires |calls| > 0 && |rets| == |calls|
    ensures NotFreedFrom(calls, 0, x.offset) <==> calls[0] != FreeCall(x.offset) && NotFreedFrom(calls[1..], 0, x.offset)
    ensures HandedOut(calls, rets, x) <==>
      || (ReturnedAt(calls, rets, 0, x) && NotFreedFrom(calls[1..], 0, x.offset))
      || HandedOut(calls[1..], rets[1..], x)
  {
    var rest, rets1 := calls[1..], rets[1..];
    forall i: nat
      ensures ReturnedAt(calls, rets, i + 1, x) <==> ReturnedAt(rest, rets1, i, x)
      ensures NotFreedFrom(calls, i + 1, x.offset) <==> NotFreedFrom(rest, i, x.offset)
    {
      if NotFreedFrom(rest, i, x.offset) {
        forall j | i + 1 <= j < |calls|
          ensures calls[j] != FreeCall(x.offset)
        {
          assert calls[j] == rest[j - 1];
        }
      }
      if NotFreedFrom(calls, i + 1, x.offset) {
        forall j | i <= j < |rest|
          ensures rest[j] != FreeCall(x.offset)
        {
          assert rest[j] == calls[j + 1];
        }
      }
    }
    if HandedOut(calls, rets, x) {
      var i: nat :| ReturnedAt(calls, rets, i, x) && NotFreedFrom(calls, i + 1, x.offset);
      if i > 0 {
        assert ReturnedAt(rest, rets1, i - 1, x) && NotFreedFrom(rest, i, x.offset);
      }
    }
    if HandedOut(rest, rets1, x) {
      var i: nat :| ReturnedAt(rest, rets1, i, x) && NotFreedFrom(rest, i + 1, x.offset);
      assert ReturnedAt(calls, rets, i + 1, x) && NotFreedFrom(calls, i + 2, x.offset);
    }
    if ReturnedAt(calls, rets, 0, x) && NotFreedFrom(rest, 0, x.offset) {
      assert NotFreedFrom(calls, 1, x.offset);
    }
  }

  /** Over a whole session, a segment is allocated at the end exactly when it
      was allocated at the start and never freed, or some malloc of the
      session returned it and no later free gave it back. */
  lemma {:induction false} RunAllocated(s: FreeList, calls: seq<Call>, x: Segment)
    requires Valid(s)
    ensures x in Allocated(Run(s, calls).pages) <==>
      || (x in Allocated(s.pages) && NotFreedFrom(calls, 0, x.offset))
      || HandedOut(calls, Returns(s, calls), x)
    decreases |calls|
  {
    if |calls| > 0 {
      var st := Step(s, calls[0]);
      var rets := Returns(s, calls);
      assert rets[1..] == Returns(st.after, calls[1..]);
      RunAllocated(st.after, calls[1..], x);
      HandedOutShift(calls, rets, x);
    }
  }

  /** From mems_init, the allocated segments are exactly the blocks malloc
      returned and no later free gave back. */
  lemma ReachableAllocatedAreHandedOut(calls: seq<Call>, x: Segment)
    ensures x in Allocated(Run(Init(), calls).pages) <==> HandedOut(calls, Returns(Init(), calls), x)
  {
    RunAllocated(Init(), calls, x);
  }
}

=== FILE: stats.dfy ===
/** mems_print_stats: the counters it reports, and what the invariant says
    about them. The printing itself is left out. */
module Stats {
  import opened Segments
  import opened Pages

  /** The four numbers mems_print_stats prints at the end. */
  datatype Report = Report(pagesUsed: nat, spacesUnused: nat, mainChainLength: nat, subChainLength: nat)

  /** Segments over all pages. */
  function SegmentCount(pages: seq<Node>): nat
  {
    if |pages| == 0 then 0
    else SegmentCount(pages[..|pages| - 1]) + |pages[|pages| - 1].chain|
  }

  lemma {:induction false} SegmentCountAppend(pages: seq<Node>, n: Node)
    ensures SegmentCount(pages + [n]) == SegmentCount(pages) + |n.chain|
  {
    assert (pages + [n])[..|pages|] == pages;
  }

  /** The counting pass of mems_print_stats: one step per page of the main
      chain, and within it one step per segment, adding HOLE sizes to the
      unused total. */
  method CollectStats(s: FreeList) returns (r: Report)
    ensures r.pagesUsed == |s.pages| && r.mainChainLength == |s.pages|
    ensures r.spacesUnused == PagesBytes(s.pages, Hole)
    ensures r.subChainLength == SegmentCount(s.pages)
  {
    var pagesUsed, spacesUnused, mainLength, subLength := 0, 0, 0, 0;
    var k := 0;
    while k < |s.pages|
      invariant k <= |s.pages|
      invariant pagesUsed == k && mainLength == k
      invariant spacesUnused == PagesBytes(s.pages[..k], Hole)
      invariant subLength == SegmentCount(s.pages[..k])
    {
      mainLength := mainLength + 1;
      pagesUsed := pagesUsed + 1;
      var c := s.pages[k].chain;
      var j := 0;
      var pageUnused := 0;
      while j < |c|
        invariant j <= |c|
        invariant pageUnused == Bytes(c[..j], Hole)
      {
        assert c[..j + 1][..j] == c[..j];
        if c[j].kind == Hole {
          pageUnused := pageUnused + c[j].size;
        }
        j := j + 1;
      }
      assert c[..j] == c;
      assert s.pages[..k + 1] == s.pages[..k] + [s.pages[k]];
      PagesBytesAppend(s.pages[..k], s.pages[k], Hole);
      SegmentCountAppend(s.pages[..k], s.pages[k]);
      spacesUnused := spacesUnused + pageUnused;
      subLength := subLength + |c|;
      k := k + 1;
    }
    assert s.pages[..k] == s.pages;
    r := Report(pagesUsed, spacesUnused, mainLength, subLength);
  }

  /** Pages whose chains each cover exactly one page of bytes. */
  lemma {:induction false} PagesFullyCovered(pages: seq<Node>)
    requires forall k :: 0 <= k < |pages| ==> Sum(pages[k].chain) == PAGE_SIZE
    ensures PagesBytes(pages, Hole) + PagesBytes(pages, Process) == |pages| * PAGE_SIZE
    decreases |pages|
  {
    if |pages| > 0 {
      var init := pages[..|pages| - 1];
      assert forall k :: 0 <= k < |init| ==> init[k] == pages[k];
      PagesFullyCovered(init);
    }
  }

  /** In every reachable state the unused space and the allocated bytes add
      up to the pages mapped: nothing is lost and nothing counted twice. */
  lemma StatsAccounting(s: FreeList)
    requires Valid(s)
    ensures PagesBytes(s.pages, Hole) + PagesBytes(s.pages, Process) == |s.pages| * PAGE_SIZE
  {
    assert forall k :: 0 <= k < |s.pages| ==> Sum(s.pages[k].chain) == PAGE_SIZE;
    PagesFullyCovered(s.pages);
  }

  /** Every page holds at least one segment, so the sub-chain count is at
      least the main-chain length. */
  lemma {:induction false} SubChainsAtLeastMain(pages: seq<Node>)
    requires ChainsNonEmpty(pages)
    ensures SegmentCount(pages) >= |pages|
    decreases |pages|
  {
    if |pages| > 0 {
      var init := pages[..|pages| - 1];
      assert forall k :: 0 <= k < |init| ==> init[k] == pages[k];
      SubChainsAtLeastMain(init);
    }
  }
}

=== FILE: translate.dfy ===
/** mems_get: translation of a MeMS virtual address to a physical one, and
    what malloc and free do to translations. */
module Translate {
  import opened Wrappers
  import opened Segments
  import opened Pages
  import opened Alloc
  import opened Dealloc

  /** The segment at `l` is the first PROCESS segment in scan order that
      contains `v`: the one both versions of mems_get translate through. */
  ghost predicate FirstOwner(s: FreeList, v: nat, l: Loc)
  {
    && ValidLoc(s.pages, l) && Matches(Covers(v), At(s.pages, l))
    && forall e :: ValidLoc(s.pages, e) && Before(e, l) ==> !Matches(Covers(v), At(s.pages, e))
  }

  /** mems_get as written: the physical base of the page plus the distance
      from the owning segment's own offset. Every block on a page therefore
      starts at the page's first physical byte. */
  function GetAsWritten(s: FreeList, v: nat): (r: Option<nat>)
    ensures r.None? <==> forall l :: ValidLoc(s.pages, l) ==> !Matches(Covers(v), At(s.pages, l))
  {
    match Find(s.pages, Covers(v))
    case None => None
    case Some(l) => Some(s.pages[l.page].phys + (v - At(s.pages, l).offset))
  }

  /** What the as-written mems_get returns is `v`'s distance into its first
      owner, added to that page's physical base. */
  lemma AsWrittenTranslatesThroughFirstOwner(s: FreeList, v: nat)
    ensures GetAsWritten(s, v).Some? ==> exists l ::
      && FirstOwner(s, v, l)
      && GetAsWritten(s, v).value == s.pages[l.page].phys + (v - At(s.pages, l).offset)
  {
    if GetAsWritten(s, v).Some? {
      var l := Find(s.pages, Covers(v)).value;
      assert FirstOwner(s, v, l);
    }
  }

  /** mems_get, corrected: the physical base of the page plus `v`'s distance
      into the page, which is the bytes of the segments before the owner plus
      the distance into the owner; None (NULL) when no PROCESS segment
      contains `v`. */
  function Get(s: FreeList, v: nat): (r: Option<nat>)
    ensures r.None? <==> forall l :: ValidLoc(s.pages, l) ==> !Matches(Covers(v), At(s.pages, l))
  {
    match Find(s.pages, Covers(v))
    case None => None
    case Some(l) => Some(s.pages[l.page].phys + Sum(s.pages[l.page].chain[..l.seg]) + (v - At(s.pages, l).offset))
  }

  /** What the corrected mems_get returns is `v` translated through its
      first owner. */
  lemma GetTranslatesThroughFirstOwner(s: FreeList, v: nat)
    ensures Get(s, v).Some? ==> exists l ::
      && FirstOwner(s, v, l)
      && Get(s, v).value == s.pages[l.page].phys + Sum(s.pages[l.page].chain[..l.seg]) + (v - At(s.pages, l).offset)
  {
    if Get(s, v).Some? {
      var l := Find(s.pages, Covers(v)).value;
      assert FirstOwner(s, v, l);
    }
  }

  /** In a valid state no PROCESS segment before the owner of `v` contains
      `v`, so the scan stops at the owner. */
  lemma OwnerIsFirst(s: FreeList, l: Loc, v: nat)
    requires Valid(s) && ValidLoc(s.pages, l)
    requires At(s.pages, l).kind == Process && At(s.pages, l).Contains(v)
    ensures Find(s.pages, Covers(v)) == Some(l)
  {
    forall e | ValidLoc(s.pages, e) && Before(e, l)
      ensures !Matches(Covers(v), At(s.pages, e))
    {
      SegmentsApart(s, e, l);
    }
    FindReturnsFirstMatch(s.pages, Covers(v), l);
  }

  /** Once the scan for `v` is known to stop at `l`, both translations of
      `v` are read off the segment at `l`. */
  lemma TranslateAt(s: FreeList, l: Loc, v: nat)
    requires ValidLoc(s.pages, l) && Find(s.pages, Covers(v)) == Some(l)
    ensures GetAsWritten(s, v) == Some(s.pages[l.page].phys + (v - At(s.pages, l).offset))
    ensures Get(s, v) == Some(s.pages[l.page].phys + Sum(s.pages[l.page].chain[..l.seg]) + (v - At(s.pages, l).offset))
  {
  }

  /** In a valid state any PROCESS segment containing `v` is its owner, and
      mems_get maps `v` to the page's physical base plus `v`'s distance from
      the page's virtual base. */
  lemma GetFindsOwner(s: FreeList, l: Loc, v: nat)
    requires Valid(s) && ValidLoc(s.pages, l)
    requires At(s.pages, l).kind == Process && At(s.pages, l).Contains(v)
    ensures Base(s.pages[l.page]) <= At(s.pages, l).offset
    ensures Get(s, v) == Some(s.pages[l.page].phys + (v - Base(s.pages[l.page])))
  {
    OwnerIsFirst(s, l, v);
    TranslateAt(s, l, v);
    OffsetIsPrefixSum(s.pages[l.page].chain, l.seg);
  }

  /** Two different live addresses on one page translate to different
      physical addresses: blocks do not share memory. */
  lemma GetKeepsAddressesApart(s: FreeList, l1: Loc, l2: Loc, v1: nat, v2: nat)
    requires Valid(s) && ValidLoc(s.pages, l1) && ValidLoc(s.pages, l2) && l1.page == l2.page
    requires At(s.pages, l1).kind == Process && At(s.pages, l1).Contains(v1)
    requires At(s.pages, l2).kind == Process && At(s.pages, l2).Contains(v2)
    requires v1 != v2
    ensures Get(s, v1).Some? && Get(s, v2).Some? && Get(s, v1) != Get(s, v2)
  {
    GetFindsOwner(s, l1, v1);
    GetFindsOwner(s, l2, v2);
  }

  /** The host handed out non-overlapping physical pages: no two pages of the
      list share a physical byte. */
  ghost predicate PhysicallyApart(s: FreeList) {
    forall j, k :: 0 <= j < k < |s.pages| ==>
      s.pages[j].phys + PAGE_SIZE <= s.pages[k].phys || s.pages[k].phys + PAGE_SIZE <= s.pages[j].phys
  }

  /** Two different live addresses, on one page or on two, translate to
      different physical addresses once the host's pages do not overlap. */
  lemma GetKeepsLiveAddressesApart(s: FreeList, l1: Loc, l2: Loc, v1: nat, v2: nat)
    requires Valid(s) && PhysicallyApart(s) && ValidLoc(s.pages, l1) && ValidLoc(s.pages, l2)
    requires At(s.pages, l1).kind == Process && At(s.pages, l1).Contains(v1)
    requires At(s.pages, l2).kind == Process && At(s.pages, l2).Contains(v2)
    requires v1 != v2
    ensures Get(s, v1).Some? && Get(s, v2).Some? && Get(s, v1) != Get(s, v2)
  {
    if l1.page == l2.page {
      GetKeepsAddressesApart(s, l1, l2, v1, v2);
    } else {
      GetFindsOwner(s, l1, v1);
      GetFindsOwner(s, l2, v2);
      SegmentInsidePage(s, l1);
      SegmentInsidePage(s, l2);
    }
  }

  /** As written, the first byte of every PROCESS segment of a valid state
      translates to its page's physical base. */
  lemma AsWrittenFirstByte(s: FreeList, l: Loc)
    requires Valid(s) && ValidLoc(s.pages, l) && At(s.pages, l).kind == Process
    ensures GetAsWritten(s, At(s.pages, l).offset) == Some(s.pages[l.page].phys)
  {
    SegmentPositive(s, l);
    OwnerIsFirst(s, l, At(s.pages, l).offset);
    TranslateAt(s, l, At(s.pages, l).offset);
  }

  /** The as-written translation lets blocks alias: in a valid state the
      first bytes of any two PROCESS segments of one page translate to the
      same physical address, the page's physical base. */
  lemma AsWrittenAliases(s: FreeList, l1: Loc, l2: Loc)
    requires Valid(s) && ValidLoc(s.pages, l1) && ValidLoc(s.pages, l2) && l1.page == l2.page
    requires At(s.pages, l1).kind == Process && At(s.pages, l2).kind == Process
    ensures GetAsWritten(s, At(s.pages, l1).offset) == Some(s.pages[l1.page].phys)
    ensures GetAsWritten(s, At(s.pages, l2).offset) == Some(s.pages[l1.page].phys)
  {
    AsWrittenFirstByte(s, l1);
    AsWrittenFirstByte(s, l2);
  }

  /** Every byte `a + d` of an allocated segment translates to its distance
      from the page's virtual base, added to the page's physical base. */
  lemma BlockTranslates(t: FreeList, l: Loc, size: nat, a: nat, d: nat)
    requires Valid(t) && ValidLoc(t.pages, l) && d < size
    requires At(t.pages, l) == Segment(Process, size, a)
    ensures Base(t.pages[l.page]) <= a
    ensures Get(t, a + d) == Some(t.pages[l.page].phys + (a + d - Base(t.pages[l.page])))
  {
    assert At(t.pages, l).Contains(a + d);
    GetFindsOwner(t, l, a + d);
  }

  /** An allocated segment found at a known address translates byte by byte. */
  lemma BlockAtTranslates(t: FreeList, size: nat, a: nat, d: nat)
    requires Valid(t) && d < size
    requires exists l :: ValidLoc(t.pages, l) && At(t.pages, l) == Segment(Process, size, a)
    ensures exists l ::
      && ValidLoc(t.pages, l)
      && At(t.pages, l) == Segment(Process, size, a)
      && Base(t.pages[l.page]) <= a
      && Get(t, a + d) == Some(t.pages[l.page].phys + (a + d - Base(t.pages[l.page])))
  {
    var l :| ValidLoc(t.pages, l) && At(t.pages, l) == Segment(Process, size, a);
    BlockTranslates(t, l, size, a, d);
  }

  /** Round trip: when `mems_malloc(size)` returns `a` and leaves state `t`,
      every byte `a + d` of the new block translates to the owning page's
      physical base plus that byte's distance from the page's virtual base. */
  lemma MallocThenGet(s: FreeList, size: nat, host: HostMap, d: nat, t: FreeList, a: nat)
    requires Valid(s) && ChainsNonEmpty(s.pages) && d < size
    requires Malloc(s, size, host) == Outcome(Some(a), t)
    ensures exists l ::
      && ValidLoc(t.pages, l)
      && At(t.pages, l) == Segment(Process, size, a)
      && Base(t.pages[l.page]) <= a
      && Get(t, a + d) == Some(t.pages[l.page].phys + (a + d - Base(t.pages[l.page])))
  {
    MallocPreservesValid(s, size, host);
    BlockAtTranslates(t, size, a, d);
  }

  /** Releasing the segment that contains `v` leaves no PROCESS segment of
      the page containing it. */
  lemma ReleasedChainOwnsNothingOf(c: seq<Segment>, i: nat, v: nat)
    requires PageChain(c) && i < |c| && c[i].kind == Process && c[i].Contains(v)
    ensures forall x :: x in ReleaseAt(c, i) ==> !Matches(Covers(v), x)
  {
    forall x | x in ReleaseAt(c, i) && x.kind == Process
      ensures !x.Contains(v)
    {
      ReleaseOwnedShrinks(c, i, x);
      var j :| 0 <= j < |c| && c[j] == x;
      SegmentsApartInChain(c, j, i);
    }
  }

  /** After mems_free of the block at `l`, no PROCESS segment contains an
      address of that block. */
  lemma FreedBlockHasNoOwner(s: FreeList, a: nat, l: Loc, v: nat)
    requires Valid(s) && ValidLoc(s.pages, l)
    requires At(s.pages, l).kind == Process && At(s.pages, l).offset == a
    requires At(s.pages, l).Contains(v)
    ensures forall e :: ValidLoc(Free(s, a).pages, e) ==> !Matches(Covers(v), At(Free(s, a).pages, e))
  {
    var c := s.pages[l.page].chain;
    FreeReleasesBlock(s, a, l);
    ReleasedChainOwnsNothingOf(c, l.seg, v);
    RewrittenPageOwnsNothingOf(s, l, ReleaseAt(c, l.seg), v, Free(s, a).pages);
  }

  /** When the page holding the owner of `v` is rewritten into a chain with
      no owner of `v`, no page has one: the other pages never held `v`. */
  lemma RewrittenPageOwnsNothingOf(s: FreeList, l: Loc, c: seq<Segment>, v: nat, pages: seq<Node>)
    requires Valid(s) && ValidLoc(s.pages, l)
    requires At(s.pages, l).kind == Process && At(s.pages, l).Contains(v)
    requires forall x :: x in c ==> !Matches(Covers(v), x)
    requires pages == s.pages[l.page := s.pages[l.page].(chain := c)]
    ensures forall e :: ValidLoc(pages, e) ==> !Matches(Covers(v), At(pages, e))
  {
    forall e | ValidLoc(pages, e)
      ensures !Matches(Covers(v), At(pages, e))
    {
      if e.page == l.page {
        assert At(pages, e) in c;
      } else {
        assert At(pages, e) == At(s.pages, e);
        SegmentsApart(s, e, l);
      }
    }
  }

  /** After `mems_free(a)` of an allocated block, no byte of that block
      translates any more. */
  lemma FreeThenGet(s: FreeList, a: nat, l: Loc, v: nat)
    requires Valid(s) && ValidLoc(s.pages, l)
    requires At(s.pages, l).kind == Process && At(s.pages, l).offset == a
    requires At(s.pages, l).Contains(v)
    ensures Get(Free(s, a), v) == None
  {
    FreedBlockHasNoOwner(s, a, l, v);
  }

  /** `t` holds the same owners of `v` as `s`, page by page over the same
      physical pages with the same virtual bases, and the pages only `t` has
      own nothing of `v`. */
  ghost predicate SameOwnersOf(s: FreeList, t: FreeList, v: nat)
  {
    && |s.pages| <= |t.pages|
    && (forall k :: 0 <= k < |s.pages| ==> t.pages[k].phys == s.pages[k].phys)
    && (forall k :: 0 <= k < |s.pages| ==>
          |s.pages[k].chain| > 0 && |t.pages[k].chain| > 0 && Base(t.pages[k]) == Base(s.pages[k]))
    && (forall k, x :: 0 <= k < |s.pages| && x in t.pages[k].chain && Matches(Covers(v), x) ==> x in s.pages[k].chain)
    && (forall k, x :: 0 <= k < |s.pages| && x in s.pages[k].chain && Matches(Covers(v), x) ==> x in t.pages[k].chain)
    && (forall k, x :: |s.pages| <= k < |t.pages| && x in t.pages[k].chain ==> !Matches(Covers(v), x))
  }

  /** With the same owners, no owner of `v` in `s` means none in `t`. */
  lemma NoOwnerCarriesOver(s: FreeList, t: FreeList, v: nat)
    requires SameOwnersOf(s, t, v)
    requires forall l :: ValidLoc(s.pages, l) ==> !Matches(Covers(v), At(s.pages, l))
    ensures forall l :: ValidLoc(t.pages, l) ==> !Matches(Covers(v), At(t.pages, l))
  {
    forall e | ValidLoc(t.pages, e)
      ensures !Matches(Covers(v), At(t.pages, e))
    {
      if e.page < |s.pages| {
        forall y | y in s.pages[e.page].chain
          ensures !Matches(Covers(v), y)
        {
          var j :| 0 <= j < |s.pages[e.page].chain| && s.pages[e.page].chain[j] == y;
          assert y == At(s.pages, Loc(e.page, j));
        }
      }
    }
  }

  /** With the same owners, the owner of `v` in `s` sits on the same page of
      `t`. */
  lemma OwnerCarriesOver(s: FreeList, t: FreeList, v: nat, e: Loc)
    requires SameOwnersOf(s, t, v)
    requires ValidLoc(s.pages, e) && Matches(Covers(v), At(s.pages, e))
    ensures exists j :: ValidLoc(t.pages, Loc(e.page, j)) && At(t.pages, Loc(e.page, j)) == At(s.pages, e)
  {
    var x := At(s.pages, e);
    assert x in s.pages[e.page].chain;
    assert x in t.pages[e.page].chain;
    var j :| 0 <= j < |t.pages[e.page].chain| && t.pages[e.page].chain[j] == x;
    assert At(t.pages, Loc(e.page, j)) == x;
  }

  /** Two scans for `v` that stop at the same segment, on pages with the
      same physical base and the same bytes before that segment, translate
      `v` alike. */
  lemma SameStopSameTranslation(s: FreeList, t: FreeList, v: nat, e: Loc, f: Loc)
    requires ValidLoc(s.pages, e) && ValidLoc(t.pages, f)
    requires Find(s.pages, Covers(v)) == Some(e) && Find(t.pages, Covers(v)) == Some(f)
    requires At(t.pages, f) == At(s.pages, e) && t.pages[f.page].phys == s.pages[e.page].phys
    requires Sum(t.pages[f.page].chain[..f.seg]) == Sum(s.pages[e.page].chain[..e.seg])
    ensures Get(t, v) == Get(s, v)
  {
    TranslateAt(s, e, v);
    TranslateAt(t, f, v);
  }

  /** In two contiguous chains with the same first offset, segments with the
      same offset have the same bytes before them. */
  lemma PrefixSumsAgree(c: seq<Segment>, i: nat, d: seq<Segment>, j: nat)
    requires Contiguous(c) && Contiguous(d) && i < |c| && j < |d|
    requires c[0].offset == d[0].offset && c[i].offset == d[j].offset
    ensures Sum(c[..i]) == Sum(d[..j])
  {
    OffsetIsPrefixSum(c, i);
    OffsetIsPrefixSum(d, j);
  }

  /** Two valid states with the same owners of `v` translate `v` alike. */
  lemma SameOwnersSameTranslation(s: FreeList, t: FreeList, v: nat)
    requires Valid(s) && Valid(t) && SameOwnersOf(s, t, v)
    ensures Get(t, v) == Get(s, v)
  {
    match Find(s.pages, Covers(v)) {
      case None =>
        NoOwnerCarriesOver(s, t, v);
      case Some(e) =>
        OwnerCarriesOver(s, t, v, e);
        var j :| ValidLoc(t.pages, Loc(e.page, j)) && At(t.pages, Loc(e.page, j)) == At(s.pages, e);
        OwnerIsFirst(t, Loc(e.page, j), v);
        PrefixSumsAgree(t.pages[e.page].chain, j, s.pages[e.page].chain, e.seg);
        SameStopSameTranslation(s, t, v, e, Loc(e.page, j));
    }
  }

  /** Releasing a segment that does not contain `v` keeps the page's owners
      of `v`. */
  lemma ReleaseKeepsOwnersOf(c: seq<Segment>, i: nat, v: nat)
    requires PageChain(c) && i < |c| && c[i].kind == Process && !c[i].Contains(v)
    ensures forall x :: x in ReleaseAt(c, i) && Matches(Covers(v), x) ==> x in c
    ensures forall x :: x in c && Matches(Covers(v), x) ==> x in ReleaseAt(c, i)
  {
    forall x | x in ReleaseAt(c, i) && Matches(Covers(v), x)
      ensures x in c
    {
      ReleaseOwnedShrinks(c, i, x);
    }
    forall x | x in c && Matches(Covers(v), x)
      ensures x in ReleaseAt(c, i)
    {
      ReleaseOwnedKeeps(c, i, x);
    }
  }

  /** mems_free of the block at `l` leaves the owners of every address
      outside that block alone. */
  lemma FreeKeepsOwners(s: FreeList, a: nat, l: Loc, v: nat)
    requires Valid(s) && ValidLoc(s.pages, l)
    requires At(s.pages, l).kind == Process && At(s.pages, l).offset == a
    requires !At(s.pages, l).Contains(v)
    ensures SameOwnersOf(s, Free(s, a), v)
  {
    var c := s.pages[l.page].chain;
    ValidChainsNonEmpty(s);
    FreeReleasesBlock(s, a, l);
    ReleaseKeepsPageChain(c, l.seg);
    ReleaseKeepsOwnersOf(c, l.seg, v);
    ReplaceKeepsOwners(s, l.page, ReleaseAt(c, l.seg), v);
  }

  /** mems_free changes no translation outside the block it frees. */
  lemma FreeKeepsOtherTranslations(s: FreeList, a: nat, l: Loc, v: nat)
    requires Valid(s) && ValidLoc(s.pages, l)
    requires At(s.pages, l).kind == Process && At(s.pages, l).offset == a
    requires !At(s.pages, l).Contains(v)
    ensures Get(Free(s, a), v) == Get(s, v)
  {
    FreeKeepsOwners(s, a, l, v);
    FreePreservesValid(s, a);
    SameOwnersSameTranslation(s, Free(s, a), v);
  }

  /** Placing a request in a HOLE keeps the page's owners of every address
      outside the request. */
  lemma PlaceKeepsOwnersOf(c: seq<Segment>, i: nat, size: nat, v: nat)
    requires i < |c| && c[i].kind == Hole && 0 < size <= c[i].size
    requires !(c[i].offset <= v < c[i].offset + size)
    ensures forall x :: x in Place(c, i, size) && Matches(Covers(v), x) ==> x in c
    ensures forall x :: x in c && Matches(Covers(v), x) ==> x in Place(c, i, size)
  {
    PlaceOwned(c, i, size);
    forall x | x in Place(c, i, size) && Matches(Covers(v), x)
      ensures x in c
    {
      assert x in Owned(Place(c, i, size));
    }
    forall x | x in c && Matches(Covers(v), x)
      ensures x in Place(c, i, size)
    {
      assert x in Owned(c);
    }
  }

  /** A fresh page owns nothing outside the request it was mapped for. */
  lemma NewChainOwnsOnlyRequest(va: nat, size: nat, v: nat)
    requires 0 < size <= PAGE_SIZE && !(va <= v < va + size)
    ensures forall x :: x in NewChain(va, size) ==> !Matches(Covers(v), x)
  {
    forall x | x in NewChain(va, size) && x.kind == Process
      ensures !x.Contains(v)
    {
      assert x in Owned(NewChain(va, size));
    }
  }

  /** The same pages, whatever the counter, hold the same owners. */
  lemma SamePagesSameOwners(s: FreeList, t: FreeList, v: nat)
    requires ChainsNonEmpty(s.pages) && t.pages == s.pages
    ensures SameOwnersOf(s, t, v)
  {
  }

  /** Rewriting one page's chain without touching its owners of `v` keeps
      the owners of `v`. */
  lemma ReplaceKeepsOwners(s: FreeList, k: nat, c: seq<Segment>, v: nat)
    requires ChainsNonEmpty(s.pages) && k < |s.pages|
    requires |c| > 0 && c[0].offset == Base(s.pages[k])
    requires forall x :: x in c && Matches(Covers(v), x) ==> x in s.pages[k].chain
    requires forall x :: x in s.pages[k].chain && Matches(Covers(v), x) ==> x in c
    ensures SameOwnersOf(s, s.(pages := s.pages[k := s.pages[k].(chain := c)]), v)
  {
  }

  /** Appending a page that owns nothing of `v` keeps the owners of `v`. */
  lemma AppendKeepsOwners(s: FreeList, t: FreeList, n: Node, v: nat)
    requires ChainsNonEmpty(s.pages) && t.pages == s.pages + [n]
    requires forall x :: x in n.chain ==> !Matches(Covers(v), x)
    ensures SameOwnersOf(s, t, v)
  {
    assert forall k :: 0 <= k < |s.pages| ==> t.pages[k] == s.pages[k];
    assert t.pages[|s.pages|] == n;
  }

  /** No byte of the block mems_malloc returns translated before the call:
      the block never overlaps another live block. */
  lemma MallocHandsOutUnmappedBytes(s: FreeList, size: nat, host: HostMap, a: nat, t: FreeList, v: nat)
    requires Valid(s) && ChainsNonEmpty(s.pages)
    requires Malloc(s, size, host) == Outcome(Some(a), t) && a <= v < a + size
    ensures Get(s, v) == None
  {
    MallocTakesFreeBytes(s, size, host, a, t, v);
  }

  /** mems_malloc leaves the owners of every address outside the block it
      returns alone. */
  lemma MallocKeepsOwners(s: FreeList, size: nat, host: HostMap, v: nat)
    requires Valid(s)
    requires ChainsNonEmpty(s.pages)
    requires Malloc(s, size, host).addr.Some? ==>
      !(Malloc(s, size, host).addr.value <= v < Malloc(s, size, host).addr.value + size)
    ensures SameOwnersOf(s, Malloc(s, size, host).after, v)
  {
    var o := Malloc(s, size, host);
    if size == 0 {
      SamePagesSameOwners(s, o.after, v);
    } else {
      match Find(s.pages, FitsHole(size)) {
        case Some(l) =>
          var c := s.pages[l.page].chain;
          PlaceKeepsPageChain(c, l.seg, size);
          PlaceKeepsOwnersOf(c, l.seg, size, v);
          ReplaceKeepsOwners(s, l.page, Place(c, l.seg, size), v);
        case None =>
          if size <= PAGE_SIZE && host.Mapped? {
            var n := Node(host.phys, NewChain(s.nextVA, size));
            NewPageAsWrittenKeepsValid(s, size, host);
            NewChainOwnsOnlyRequest(s.nextVA, size, v);
            AppendKeepsOwners(s, o.after, n, v);
          } else {
            SamePagesSameOwners(s, o.after, v);
          }
      }
    }
  }

  /** mems_malloc changes no translation outside the block it returns (a
      failed call changes none at all). */
  lemma MallocKeepsOtherTranslations(s: FreeList, size: nat, host: HostMap, v: nat)
    requires Valid(s)
    requires ChainsNonEmpty(s.pages)
    requires Malloc(s, size, host).addr.Some? ==>
      !(Malloc(s, size, host).addr.value <= v < Malloc(s, size, host).addr.value + size)
    ensures Get(Malloc(s, size, host).after, v) == Get(s, v)
  {
    MallocKeepsOwners(s, size, host, v);
    MallocPreservesValid(s, size, host);
    SameOwnersSameTranslation(s, Malloc(s, size, host).after, v);
  }
}

=== FILE: wrappers.dfy ===
/** The NULL-or-value results of the allocator's entry points. */
module Wrappers {

  /** `None` stands for the NULL pointer the C functions return. */
  datatype Option<+T> = None | Some(value: T)
}
